=== FILE: README.md ===
# Unstitched: a Dafny model of the game's state machines

Unstitched is a two-character Unity puzzle game. The player controls a main character and a
companion (the follower) and can switch between them. Together they pull and push cubes, carry
and throw items, press buttons, work levers and pass doors. A room camera follows whichever
character is active from room to room.

This project models the discrete state behind those mechanics as immutable Dafny datatypes and
pure transition functions:

- which character is active, and the room each one is in;
- the camera's current room and its history stack;
- each character's pull, push, hold and throw state;
- the follower's follow and go-to-lever logic;
- the vertical-velocity rule;
- the doors, buttons, lever, moving platform, pickupable gravity and win zone.

The engine's queries become parameters: ray hits, overlap lists, NavMesh path status, ground
contact, position after a CharacterController move, and `Time.deltaTime`. Coroutines become
explicit phases advanced by events ("a frame passed", "the wait ran out"). Animator triggers
become lists of emitted cue names.

Modules follow the scripts:

| module | script |
|---|---|
| `Controllable` | `ControllableCharacter` |
| `SwitchManager` | `CharacterSwitchManager` |
| `RoomCamera` | `RoomCameraController` |
| `RoomTriggers` | `CameraRoomTrigger` |
| `Players` | `Player` |
| `Followers` | `Follower` |
| `Characters` | the two character variants |
| `Pickupables` | `Pickupable` |
| `DoorControllers` | `DoorController` |
| `Doors` | `Door` |
| `Buttons` | `Button` |
| `ButtonInteractions` | `ButtonInteraction` |
| `Levers` | `Lever` |
| `Platforms` | `PlatformParent` |
| `WinBoxes` | `WinBox` |

Four more modules hold shared code:

- `Manipulation` holds the pull, push, pick-up and throw code that `Player` and `Follower` share.
- `Locomotion` holds the shared gravity and jump rule.
- `UnityMath` holds `Mathf.Clamp`, `Lerp`, `InverseLerp` and a 1-D `MoveTowards`.
- `Scene` holds vectors, tags and rooms.

Floats are `real`. An infinite bound (`float.NegativeInfinity` / `PositiveInfinity`) is
`Option<real>` with `None` meaning unbounded. Object references are ids. An id that is absent
from the relevant map plays the part of Unity's null, which a destroyed object also compares
equal to.

Where the code and the game's design description differ, the model follows the code:

- **History top can equal the current room.** The design says the top of the camera history
  never equals the current room. `MoveToRoom` and `MoveBackToPreviousRoom` preserve that, but
  `SetInstant` changes the room without touching the history and can break it
  (`RoomCamera.SetInstantCanRepeatTop`).
- **Input reaches inactive characters too.** The design routes input to the active character
  only. In the code every character subscribes to the input actions itself. Only `Jump` and the
  per-frame `Update` check the active flag. `PullStart`, `Interact`, `Throw` and `Whistle` act
  on an inactive character too, and the model's versions of these take no activity flag.
- **Whistle during a lever trip.** The design says a whistle is ignored on the way to a lever.
  The code sets `isFollowing` anyway, and `Update` gives the lever trip priority
  (`Followers.Update`).
- **A lever trip leaves the agent stopped.** Arrival stops the agent, and the follow AI only
  re-enables and re-aims it without clearing the stop, so a whistle after a lever trip does not
  set the agent moving (`Followers.LeverTripLeavesAgentStopped`). `GoToLever` has no caller
  among the modelled scripts.
- **Held items are not exclusive.** The design calls them exclusive, but nothing in the code
  keeps two characters from holding the same item (`Manipulation.SameItemCanBeHeldTwice`).
- **A closing door cannot be re-opened.** The design speaks of re-opening a closing door. In the
  code `OpenDoor` is refused while the door moves (`DoorControllers.ClosingRefusesOpen`).
- **Only the camera's target x is clamped.** The camera's actual, smoothed position is not
  clamped.
- **The player pushes kinematic bodies; the follower does not.**
- **Toggling with the companion unassigned is not a no-op.** The design says a toggle with no
  other character to switch to does nothing. In the code, Tab with main active stores the null
  companion after deactivating main, then throws on activating it. Nobody is active until the
  next Tab brings main back (`SwitchManager.UnassignedCompanionAlternates`). The model keeps the
  state the exception leaves behind.
- **The interpolated walk/run speed drives only an agentless follower.** The design says the
  follower picks its walk or run speed by interpolation. In the code a NavMeshAgent, when
  present, walks at its own speed, and the interpolated speed is used only without an agent,
  scaled by 0.7 (`Followers.HandleFollowAI`, `Followers.AgentlessChaseIsSlowerThanWalking`).
- **"Exactly one active" covers only the switch manager's calls.** `GameIntroManager`
  deactivates both characters directly, outside the switch manager, so the property
  (`SwitchManager.ExactlyOneAfterToggles`) is stated only for the manager's own calls.

## Model

| member | source | states |
|---|---|---|
| Controllable.SetActive | Assets/Scripts/ControllableCharacter.cs:10-13 | After SetActive(b) the activation flag is b and the current room is unchanged. |
| Controllable.SetCurrentRoom | Assets/Scripts/ControllableCharacter.cs:7-8 | GetCurrentRoom then answers exactly the room just set, and the activation flag is unchanged. |
| Controllable.BaseAct | Assets/Scripts/ControllableCharacter.cs:15-21 | The base Move/Jump/PullStart/PullStop/Interact/Throw/Whistle leave the activation flag and current room as they were. |
| Controllable.GetCurrentRoomIsLastSet | Assets/Scripts/ControllableCharacter.cs:5-21 | After any sequence of calls, GetCurrentRoom is the argument of the most recent SetCurrentRoom and the flag is that of the most recent SetActive; the other calls disturb neither. |
| Controllable.ApplySnoc | Assets/Scripts/ControllableCharacter.cs:5-21 | Running a call history and then one more call is the same as running the extended history. |
| Characters.SetActive | Assets/Scripts/Follower.cs:330-354 | Dispatching SetActive to either variant sets the flag, keeps the room, and on a follower performs the follower's override. |
| Characters.SetCurrentRoom | Assets/Scripts/ControllableCharacter.cs:7 | Recording a room on either variant changes only the room. |
| Characters.Whistle | Assets/Scripts/Player.cs:295-299 | A follower starts following; a player forwards the whistle to its companion when that reference names a follower, and nobody else changes. |
| SwitchManager.SetActiveCharacter | Assets/Scripts/CharacterSwitchManager.cs:43-66 | Afterwards the manager holds c. A different, non-null previously active character is flagged inactive, and everyone else is untouched. A live c is flagged active; with a camera it becomes the follow target and its room, if any, is handed over by SetInstant when instant and by MoveToRoom otherwise. A null c is stored and the call ends there: the camera and every other character are untouched. Without a camera the camera is untouched. |
| SwitchManager.Start | Assets/Scripts/CharacterSwitchManager.cs:29-33 | The main character becomes the active one, and a camera snaps instantly to its usable room without touching the history. An unassigned main character is stored, nobody is activated and the camera is untouched. |
| SwitchManager.Toggle | Assets/Scripts/CharacterSwitchManager.cs:35-41 | The companion is chosen when the active reference equals the main one under Unity's == (two nulls are equal), and the main character otherwise, including before anyone is active. |
| SwitchManager.UnassignedCompanionAlternates | Assets/Scripts/CharacterSwitchManager.cs:35-49 | With the companion unassigned and main active, one toggle leaves nobody active and the camera untouched, and the next one makes main active again: the toggle is not a no-op. |
| SwitchManager.StartEstablishesExactlyOne | Assets/Scripts/CharacterSwitchManager.cs:29-33 | Starting with two distinct, not yet active characters leaves exactly one of them active, and it is the one the manager reports. |
| SwitchManager.ToggleKeepsExactlyOne | Assets/Scripts/CharacterSwitchManager.cs:39 | A toggle flips both characters' flags together and keeps exactly one active. |
| SwitchManager.TogglesKeepExactlyOne | Assets/Scripts/CharacterSwitchManager.cs:35-66 | Any number of toggles keeps exactly one of the two characters active. |
| SwitchManager.ExactlyOneAfterToggles | Assets/Scripts/CharacterSwitchManager.cs:29-66 | Counting only the manager's own calls, after Start and any number of toggles exactly one of the two characters is active. |
| RoomCamera.Adopt | Assets/Scripts/RoomCameraController.cs:32-36 | Adopting a room makes the camera show it: current room, focus point and both bounds come from the room. |
| RoomCamera.MoveToRoom | Assets/Scripts/RoomCameraController.cs:25-37 | A null room or one without a focus point is ignored. Otherwise the camera shows the new room, and the old room is pushed exactly when it existed and differs from the new one. |
| RoomCamera.MoveBackToPreviousRoom | Assets/Scripts/RoomCameraController.cs:39-50 | An empty history is a no-op. Otherwise the history loses exactly its top, and the popped room is shown only if it has a focus point. |
| RoomCamera.SetFollowTarget | Assets/Scripts/RoomCameraController.cs:52-55 | Only the follow target changes. |
| RoomCamera.SetInstant | Assets/Scripts/RoomCameraController.cs:82-92 | A usable room is shown with the history untouched, the rig at focus plus offset and the smoothing velocity zero; an unusable room is ignored. |
| RoomCamera.TargetPosition | Assets/Scripts/RoomCameraController.cs:59-76 | There is no target without a focus point; the target's height is the focus height plus the offset's, since the parallax is horizontal; with ordered bounds the target x lies within them, and an in-bounds raw x and the z pass unchanged. |
| RoomCamera.InitialIsCoherent | Assets/Scripts/RoomCameraController.cs:13-21 | A fresh camera satisfies the history invariants. |
| RoomCamera.MoveToRoomPreserves | Assets/Scripts/RoomCameraController.cs:25-37 | MoveToRoom keeps the camera coherent, and never stacks a room on itself or under the current room. |
| RoomCamera.MoveBackPreserves | Assets/Scripts/RoomCameraController.cs:39-50 | MoveBackToPreviousRoom keeps the same invariants. |
| RoomCamera.SetInstantKeepsCoherent | Assets/Scripts/RoomCameraController.cs:82-92 | SetInstant keeps the camera coherent. |
| RoomCamera.SetInstantCanRepeatTop | Assets/Scripts/RoomCameraController.cs:82-92 | A concrete camera where SetInstant leaves the history top equal to the current room. |
| RoomCamera.MoveToRoomRemembersPrevious | Assets/Scripts/RoomCameraController.cs:29-33 | After moving from a room to a different one, the history top is the room left, which differs from the new current room. |
| RoomCamera.ReenterKeepsHistory | Assets/Scripts/RoomCameraController.cs:29-30 | Re-entering the current room leaves the history as it was. |
| RoomCamera.MoveThenBackRestores | Assets/Scripts/RoomCameraController.cs:25-50 | MoveToRoom to a different usable room followed by MoveBackToPreviousRoom restores the camera exactly: room, focus, bounds and history. |
| RoomTriggers.OnTriggerEnter | Assets/Scripts/CameraRoomTrigger.cs:11-23 | A collider without a character changes nothing. Any entering character records this room and nobody else changes. An inactive one leaves the camera untouched; an active one becomes the follow target, and the camera shows the room when the room has a focus point. |
| RoomTriggers.ActiveCharacterChangesRoom | Assets/Scripts/CameraRoomTrigger.cs:11-23 | The active character walking into another room makes the camera show it, with the room just left on top of the history. |
| Locomotion.HandleGravity | Assets/Scripts/Player.cs:118-123 | The grounded flag is refreshed; a grounded fall is reset to -2 before gravity * dt is added; in every other case, airborne or grounded with a non-negative velocity (the frame after a jump), gravity * dt is added to the velocity. |
| Locomotion.Jump | Assets/Scripts/Player.cs:111-116 | Only an active, grounded character takes off, with a non-negative vy whose square is -2 * jumpHeight * gravity; otherwise nothing changes. |
| Locomotion.AirborneFallIsLinear | Assets/Scripts/Follower.cs:126-131 | After n airborne frames the vertical velocity has changed by n * gravity * dt. |
| Locomotion.GroundedVelocitySettles | Assets/Scripts/Follower.cs:126-131 | A grounded, falling character settles at -2 + gravity * dt and stays there for any number of frames. |
| Manipulation.SetKinematic | Assets/Scripts/Player.cs:258-259 | Only the named body's kinematic flag changes, and only if the object has a body. |
| Manipulation.PullStart | Assets/Scripts/Player.cs:145-155 | Pulling starts on exactly the hit body when the ray hit is tagged Interactable with a non-kinematic rigidbody; otherwise nothing changes. |
| Manipulation.PullStop | Assets/Scripts/Player.cs:157-161 | Both the pulling flag and the pulled body are cleared, and nothing else changes. |
| Manipulation.HandlePulling | Assets/Scripts/Player.cs:163-193 | Pulling continues exactly when the body still exists within pullMinDistance + 2. Drifting farther stops the pull and drops the body reference. |
| Manipulation.HandlePushing | Assets/Scripts/Player.cs:196-220 | An inactive character is untouched. Otherwise pushing holds exactly when the input's squared magnitude is at least 0.01 and the ray meets an Interactable rigidbody that the character may push, and a push effect is reported exactly then, on the hit body. A kinematic body, which only a kinematic-pushing character moves, is translated by the movement direction times the step; a dynamic one gets the movement direction times pushForce as a force. |
| Manipulation.ClosestIsUnique | Assets/Scripts/Player.cs:232-249 | Any Pickupable hit that is no farther than every candidate and strictly nearer than every earlier one is the one the scan picks, so the scan's choice is fully determined. |
| Manipulation.ClosestIn | Assets/Scripts/Player.cs:232-249 | The scan finds nothing exactly when no hit is tagged Pickupable. Otherwise it picks a Pickupable hit no farther than any other and strictly nearer than every earlier one, so the first of equally near candidates wins. |
| Manipulation.Interact | Assets/Scripts/Player.cs:227-273 | A no-op while pulling or pushing. Empty-handed, the nearest Pickupable is held and its body made kinematic, with no change when there is none. Holding, the item is let go with its body dynamic. Other bodies are untouched, and holding ⇔ held reference is kept. |
| Manipulation.Throw | Assets/Scripts/Player.cs:275-289 | A no-op unless holding. The item is let go and its body made dynamic, other bodies untouched, and it receives one impulse exactly when it has a body: forward * throwForce plus throwUpwardForce upwards, in all three components. |
| Manipulation.SameItemCanBeHeldTwice | Assets/Scripts/Player.cs:232-262 | Two empty-handed characters scanning the same lone item both end up holding it. |
| Players.SetRoomBounds | Assets/Scripts/Player.cs:319-323 | The x bounds become the given interval and every other field of the player is unchanged. |
| Players.Move | Assets/Scripts/Player.cs:93-109 | With ordered bounds the resulting x lies within them, and an in-bounds move is kept. The speed is the pull speed while pulling a live body, and the sprint or walk speed otherwise. The moving flag follows the input's squared magnitude against 0.01. |
| Players.MoveStaysInRoom | Assets/Scripts/Player.cs:106-108 | After SetRoomBounds(minX, maxX) with minX <= maxX, every Move leaves x in [minX, maxX]. |
| Players.Jump | Assets/Scripts/Player.cs:111-116 | Only an active, grounded player takes off, reaching jumpHeight; everything else is unchanged. |
| Players.PullStart | Assets/Scripts/Player.cs:145-155 | Only an acceptable ray hit starts a pull, on that body. |
| Players.PullStop | Assets/Scripts/Player.cs:157-161 | Pulling ends and the body reference is dropped. |
| Players.Interact | Assets/Scripts/Player.cs:227-273 | A no-op while pulling or pushing. Empty-handed, the player holds the nearest Pickupable (holding flag set) and its body turns kinematic, or nothing changes when there is none. Holding, the item is let go (holding flag cleared) and its body turns dynamic. Other bodies and the player's other fields are untouched, and no body is added or removed. |
| Players.Throw | Assets/Scripts/Player.cs:275-289 | A no-op unless holding. Otherwise the player is always left empty-handed with the rest of its hands unchanged, the item's body is dynamic and other bodies untouched, and the item gets the impulse forward * throwForce plus throwUpwardForce upwards exactly when it has a body. |
| Players.Update | Assets/Scripts/Player.cs:69-88 | An inactive player is untouched. An active one records sprint, integrates gravity for the frame's ground contact, sets the moving flag from the input threshold, keeps x within ordered bounds that it leaves unchanged, and keeps what it holds. Pushing holds exactly under the push rule with kinematic bodies allowed; the push effect is reported exactly then, on the hit body, as a translation by direction × pullSpeed × dt for a kinematic body and a force of direction × pushForce otherwise. Any pull that survives the frame's second pull step is within range. |
| Followers.SetActive | Assets/Scripts/Follower.cs:330-354 | Going active stops following, disables the agent and makes the body kinematic with rotation frozen. Going inactive re-enables the agent and makes the body dynamic. The room is kept. |
| Followers.Whistle | Assets/Scripts/Follower.cs:282-285 | The follower is following afterwards, and nothing else changes. |
| Followers.GoToLever | Assets/Scripts/Follower.cs:361-369 | Without an agent nothing changes. Otherwise following stops and the lever trip starts, with the agent unstopped and aimed at the target. |
| Followers.HandleGoToLever | Assets/Scripts/Follower.cs:371-384 | On a lever trip, the trip ends and the agent stops exactly when the path is computed and within stopping distance; until then nothing changes. |
| Followers.ChaseSpeed | Assets/Scripts/Follower.cs:298-299 | The follow speed lies between walk and run speed. |
| Followers.ChaseSpeedMonotone | Assets/Scripts/Follower.cs:298-299 | A farther player never gives a slower follow speed. |
| Followers.ChaseSpeedTopsOut | Assets/Scripts/Follower.cs:298-299 | At or beyond the run distance the follower moves at run speed. |
| Followers.HandleFollowAI | Assets/Scripts/Follower.cs:287-324 | Not following, or no player, changes nothing. Within the stop distance following ends. Beyond it the follower keeps following: an agent is enabled and aimed at the player and the script moves nothing itself; without an agent the follower moves itself at 0.7 times the interpolated speed, so between 0.7 walk and 0.7 run speed. |
| Followers.Move | Assets/Scripts/Follower.cs:105-117 | Same speed choice and pull step as the player, and no horizontal clamp. |
| Followers.Jump | Assets/Scripts/Follower.cs:119-124 | Only an active, grounded follower takes off, reaching jumpHeight. |
| Followers.PullStart | Assets/Scripts/Follower.cs:153-163 | Only a non-kinematic Interactable body can be pulled. |
| Followers.PullStop | Assets/Scripts/Follower.cs:165-169 | Pulling ends and the body reference is dropped. |
| Followers.Interact | Assets/Scripts/Follower.cs:211-257 | A no-op while pulling or pushing. Empty-handed, the follower holds the nearest Pickupable (holding flag set) and its body turns kinematic, or nothing changes when there is none. Holding, the item is let go (holding flag cleared) and its body turns dynamic. Other bodies and the follower's other fields are untouched. |
| Followers.Throw | Assets/Scripts/Follower.cs:259-276 | A no-op unless holding. Otherwise the follower is always left empty-handed, the item's body is dynamic and other bodies untouched, and the item gets the impulse forward * throwForce plus throwUpwardForce upwards exactly when it has a body. |
| Followers.Update | Assets/Scripts/Follower.cs:78-103 | The branch is manual control exactly when active, the lever handler exactly when inactive on a lever trip, and the follow AI otherwise. The AI branches leave hands and vertical motion alone. Under manual control gravity is integrated for the frame's ground contact, sprint and the moving flag follow the input, and pushing holds exactly under the push rule without kinematic bodies; the push effect is then a force of direction × pushForce on the hit, dynamic body, and nothing otherwise. |
| Followers.WhistleStartsChase | Assets/Scripts/Follower.cs:78-89 | A whistled, idle, AI-driven follower with a distant player chases it: an agent is switched on and aimed at the player with its stopped switch left as it was, and without one the follower moves itself at between 0.7 walk and 0.7 run speed. |
| Followers.LeverTripLeavesAgentStopped | Assets/Scripts/Follower.cs:359-384 | After GoToLever and arrival the trip is over with the agent stopped at the lever; a later whistle aims the agent at a distant player, but it stays stopped. |
| Followers.AgentlessChaseIsSlowerThanWalking | Assets/Scripts/Follower.cs:294-309 | With the default tuning, an agentless follower chasing a player 2 units away moves more slowly than the walk speed. |
| Pickupables.Awake | Assets/Scripts/Pickupable.cs:14-18 | Built-in gravity is switched off and the gravity scale is kept. |
| Pickupables.SetGravityScale | Assets/Scripts/Pickupable.cs:29-37 | GetGravityScale afterwards returns the scale just set. |
| Pickupables.FixedUpdate | Assets/Scripts/Pickupable.cs:20-27 | Acceleration is applied exactly when the body is not kinematic. Each of its three components is the world gravity's scaled by the gravity scale, so it equals world gravity at scale 1 and is zero at scale 0. |
| Pickupables.AwakeItemFallsWithWorldGravity | Assets/Scripts/Pickupable.cs:8-27 | An item with the default scale falls with exactly the world gravity after Awake. |
| Pickupables.PickedUpItemFloats | Assets/Scripts/Pickupable.cs:20-27 | An item a character has just picked up gets no custom gravity. |
| Pickupables.ThrownItemFalls | Assets/Scripts/Pickupable.cs:20-27 | A thrown item falls under its scaled gravity again. |
| DoorControllers.IsBlocked | Assets/Scripts/DoorController.cs:86-100 | Blocked exactly when some overlapping collider belongs to an object other than the door. |
| DoorControllers.MotionStep | Assets/Scripts/DoorController.cs:41-62 | A motion either continues or ends exactly at its target. An ended opening waits for the close delay, and an ended closing rests closed. |
| DoorControllers.OpenDoor | Assets/Scripts/DoorController.cs:22-39 | A no-op when open or moving. Otherwise the door was closed at rest; it becomes open, cues "Open" when animated, and is moving unless already at the open position. |
| DoorControllers.StartClosing | Assets/Scripts/DoorController.cs:77-83 | Once closing starts the door no longer counts as open. |
| DoorControllers.CloseDelayElapsed | Assets/Scripts/DoorController.cs:56-75 | Only a door waiting open reacts. Blocked, it goes on trying to close without moving; unblocked, it starts closing. |
| DoorControllers.Frame | Assets/Scripts/DoorController.cs:46-75 | An opening door stays opening or arrives open; a closing door stays closing or arrives closed. A door trying to close stays put while blocked and starts closing otherwise. Closed and waiting doors ignore frames. |
| DoorControllers.BlockedDoorStaysOpen | Assets/Scripts/DoorController.cs:69-75 | While something blocks the door, no event takes an open door out of the open state. |
| DoorControllers.ClosingRefusesOpen | Assets/Scripts/DoorController.cs:43 | A closing door is not open but moving, so OpenDoor is refused. |
| DoorControllers.ClosingFollowsWaiting | Assets/Scripts/DoorController.cs:56-61 | Closing starts only out of the close-delay wait or the blocked retry. |
| DoorControllers.BlockedPollNeverEnds | Assets/Scripts/DoorController.cs:69-75 | The blocked retry has no timeout: any number of blocked frames leaves the door exactly as it was. |
| DoorControllers.OpeningArrives | Assets/Scripts/DoorController.cs:46-53 | With a positive step per frame, an opening door arrives at the open position within the number of frames needed to cover the distance, plus one. |
| DoorControllers.WaitingStays | Assets/Scripts/DoorController.cs:56-59 | A door waiting fully open ignores any number of frames. |
| DoorControllers.OpenDoorIdempotent | Assets/Scripts/DoorController.cs:24-28 | A second OpenDoor right after the first changes nothing. |
| Doors.OpenDoor | Assets/Scripts/Door.cs:11-19 | Acts exactly when the door has an animator and is not open. It then opens, cues "Open" and schedules one more close. Otherwise nothing changes. |
| Doors.CloseDelayElapsed | Assets/Scripts/Door.cs:21-30 | A pending close is used up and the animator presence is kept. It clears isOpen and cues "doorClose" exactly when the door is open with an animator. |
| Doors.EventsKeepScheduled | Assets/Scripts/Door.cs:11-30 | Both events keep the schedule invariant: the door is open exactly while one close is pending. |
| Doors.InitialScheduled | Assets/Scripts/Door.cs:9 | A fresh door satisfies the schedule invariant. |
| Doors.OpenDoorIdempotent | Assets/Scripts/Door.cs:13 | Opening an open door is a no-op. |
| Doors.OpenThenCloseRestores | Assets/Scripts/Door.cs:11-30 | Opening a closed animated door and letting its timer fire restores the door exactly. |
| Buttons.OpenDoors | Assets/Scripts/Button.cs:20-27 | Every door named by a non-null link is opened, once or many times alike, and every other door is untouched. |
| Buttons.OpenControllers | Assets/Scripts/Button.cs:30-37 | Every blockable door named by a non-null link receives OpenDoor, and the others are untouched. |
| Buttons.OnTriggerEnter | Assets/Scripts/Button.cs:10-39 | Only a pickupable presses. The press cue fires exactly when a pickupable enters and the plate has an animator. All linked doors of both kinds are opened, and nothing else changes. |
| Buttons.PressOpensLinkedDoor | Assets/Scripts/Button.cs:20-27 | A linked animated door is open after a press. |
| Buttons.SecondPressKeepsDoors | Assets/Scripts/Button.cs:10-27 | A second press while the doors are open changes no simple door. |
| ButtonInteractions.TryPressButton | Assets/Scripts/ButtonInteraction.cs:24-42 | Presses exactly when not yet pressed and an active character is within range, a distance equal to the range included. A press starts the sequence and cues "ButtonDown" when animated; otherwise nothing changes. |
| ButtonInteractions.PressDelayElapsed | Assets/Scripts/ButtonInteraction.cs:44-52 | After the delay the door animator, if present, is cued "OpenDoor" and the sequence ends. |
| ButtonInteractions.StepKeepsCoherent | Assets/Scripts/ButtonInteraction.cs:24-53 | The latch flag agrees with the sequence phase after every event. |
| ButtonInteractions.OneShot | Assets/Scripts/ButtonInteraction.cs:26-49 | Over any run of events the button goes down at most once and the door is cued at most once, never again once pressed. |
| ButtonInteractions.CountAppend | Assets/Scripts/ButtonInteraction.cs:37-53 | Cue counts add up over concatenated runs. |
| Levers.PendingWait | Assets/Scripts/Lever.cs:49-73 | A sequence is waiting exactly when one is running. |
| Levers.TryActivateLever | Assets/Scripts/Lever.cs:28-47 | A running sequence, no active character or too great a distance leave the lever unchanged. Otherwise a raised platform starts lowering with "LeverUp", and a lowered one starts raising with "Idle" and "RaisePlatform". |
| Levers.WaitElapsed | Assets/Scripts/Lever.cs:49-73 | After the lever delay the platform is cued "LowerPlatform". At the end of a sequence the running flag clears and the platform has flipped. |
| Levers.EventsKeepCoherent | Assets/Scripts/Lever.cs:28-73 | The running flag always matches a sequence in progress, and that sequence always leaves the platform's current state. |
| Levers.Finish | Assets/Scripts/Lever.cs:49-73 | Letting every wait elapse ends with no sequence running. |
| Levers.ActivationFlipsPlatform | Assets/Scripts/Lever.cs:39-73 | A completed activation flips the platform and frees the lever, and nothing else changes. |
| Levers.TwoActivationsRestore | Assets/Scripts/Lever.cs:17-73 | From the raised state, two completed activations return the lever exactly to where it started, cueing LeverUp, LowerPlatform, Idle and RaisePlatform in order. |
| Levers.RunningIgnoresActivation | Assets/Scripts/Lever.cs:30 | While a sequence runs, activation is a no-op. |
| Platforms.OnTriggerEnter | Assets/Scripts/PlatformParent.cs:27-34 | A non-character is ignored. A character ends up standing and is appended only if absent, so the list keeps no duplicates. |
| Platforms.IndexOf | Assets/Scripts/PlatformParent.cs:41 | The search answers -1 exactly when x is absent, and otherwise a position holding x with no earlier x. |
| Platforms.RemoveFirst | Assets/Scripts/PlatformParent.cs:41 | An absent x leaves the list unchanged. Otherwise the list loses exactly its first x: the result is the list with that position cut out, so the order is kept, one copy of x leaves the multiset, and everyone else stays. On a list without duplicates the removed character is gone entirely. |
| Platforms.RemoveAtShrinks | Assets/Scripts/PlatformParent.cs:41 | Cutting out one position removes exactly one copy of its element and keeps a list without duplicates free of them, the removed element included. |
| Platforms.OnTriggerExit | Assets/Scripts/PlatformParent.cs:36-43 | A non-character is ignored. The leaving character is no longer standing, everyone else still is, and the list keeps no duplicates. |
| Platforms.CarryMovesEachOnce | Assets/Scripts/PlatformParent.cs:19-22 | On a duplicate-free list, every standing character moves by the displacement exactly once and nobody else moves. |
| Platforms.LateUpdate | Assets/Scripts/PlatformParent.cs:15-25 | Each standing character is shifted by the platform's displacement since the last frame and others are untouched, then the current position is remembered. |
| Platforms.StillPlatformMovesNobody | Assets/Scripts/PlatformParent.cs:17-24 | A platform that has not moved since the last frame moves nobody. |
| Platforms.SecondUpdateAtRestMovesNobody | Assets/Scripts/PlatformParent.cs:17-24 | A repeat LateUpdate with no platform motion moves nobody. |
| WinBoxes.OnTriggerEnter | Assets/Scripts/WinBox.cs:22-31 | A Player-tagged enter marks the player inside and a Companion-tagged enter marks the companion; other tags change nothing. The fade starts exactly when both are inside afterwards. |
| WinBoxes.OnTriggerExit | Assets/Scripts/WinBox.cs:33-39 | Exiting clears only the matching flag and starts nothing. |
| WinBoxes.NoWinWithoutCompanion | Assets/Scripts/WinBox.cs:22-39 | If the companion starts outside and never enters, no run of events starts the fade. |
| WinBoxes.NoWinWithoutPlayer | Assets/Scripts/WinBox.cs:22-39 | The same holds for the player. |
| WinBoxes.FadeCanStartTwice | Assets/Scripts/WinBox.cs:29-30 | Every further entry while both are inside starts the fade again. |
| UnityMath.Clamp | Assets/Scripts/Player.cs:107 | Mathf.Clamp: the result lies within ordered bounds, an in-bounds value is kept, and the result is always the value or one of the bounds. |
| UnityMath.ClampIdempotent | Assets/Scripts/RoomCameraController.cs:73 | Clamping twice is clamping once. |
| UnityMath.Lerp | Assets/Scripts/Follower.cs:299 | Mathf.Lerp stays between its ends and reaches them at t <= 0 and t >= 1. |
| UnityMath.LerpMonotone | Assets/Scripts/Follower.cs:299 | Lerp grows with its parameter when a <= b. |
| UnityMath.InverseLerp | Assets/Scripts/Follower.cs:298 | Mathf.InverseLerp lies in [0, 1], and is 0 at or below a and 1 at or above b on an increasing range. |
| UnityMath.InverseLerpMonotone | Assets/Scripts/Follower.cs:298 | InverseLerp grows with its value on an increasing range. |
| UnityMath.MoveTowards | Assets/Scripts/DoorController.cs:48 | Vector3.MoveTowards along the track: never farther from the target, and either on it or exactly maxDelta closer. |

## Left out

- **Scripts not modelled.** `GameIntroManager` and `DeathBox` are presentation only: UI fades,
  `Time.timeScale`, the intro camera move, keyboard polling and quitting. `WinBox`'s
  `FadeAndQuit` is represented only by the flag that starts it, and its random delays and
  fading are left out.
- **Engine queries become parameters.** Physics queries (ray casts, overlap sphere and box),
  CharacterController motion and ground contact, and NavMeshAgent internals (path status,
  remaining distance) are inputs, not simulations.
- **Forces are values.** Pushes and throws are reported as values (`PushEffect` with its
  translation or force vector, `Impulse`) and not integrated. The movement direction a push
  uses is the engine's normalized move input, supplied with the frame.
- **Float vector maths.** Left out: rotations (`Slerp`, `LookRotation`), `SmoothDamp` of the
  camera position, the `ClampMagnitude` of the camera parallax (an input), and the
  `MoveTowards`/`Lerp` motion of a pulled cube. The pulled cube's distance after the motion is
  an input (`CubeProbe`). The door's motion is kept, as a 1-D coordinate along its track.
- **The follower's lift on throw.** The follower's 0.1 upward nudge of a thrown item's
  position is a transform change and is not modelled.
- **walkDistance.** The follower's `walkDistance` field is kept in `Followers.Config` with its
  default, but the code never reads it, and nothing in the model reads it either.
- **Animator parameters and debugging.** Animator float and bool parameters, `Debug.Log` and
  Gizmos are left out. Animator triggers are kept as cue lists only for the doors, buttons and
  lever.
- **Input-system wiring and the singleton.** Input wiring, enabling and disabling, and the
  singleton `Destroy` in the switch manager's `Awake` are left out.
- **Unmodelled exceptions.** Left out:
  - the NullReferenceException when `Camera.main` or the manager instance is missing;
  - a missing hold point;
  - a missing lever or platform animator. `Lever` triggers both without null checks after it
    has set `isSequenceRunning`, so either one missing throws inside the sequence and leaves
    the lever locked for good; the model always completes the sequence;
  - a follower without a NavMeshAgent. `Follower.Awake` sets `agent.updatePosition` before it
    wires the controls, and the agent is not a required component, so such a follower throws
    on load and never receives input. The model still treats an agentless follower as a
    working setup, as the code's later `agent != null` checks do;
  - a missing player animator. `Player.Whistle` triggers its animator before forwarding the
    whistle, so in the game a missing animator also stops the forwarding. `Characters.Whistle`
    always forwards;
  - a standing character destroyed while on a platform. `Platforms.Carry` skips such a
    character, where the engine would throw.
- **Coroutine timing.** `WaitForSeconds` lengths are named constants, and their elapsing is an
  event. Which of several ready events runs first in a frame is the caller's choice.
- Players.Jump, Followers.Jump and Locomotion.Jump: the square root is supplied by the
  caller. The caller must provide a non-negative `root` whose square is
  `jumpHeight * -2 * gravity`, standing in for `Mathf.Sqrt`; with a positive gravity the engine
  returns NaN, which is not modelled.
- UnityMath.MoveTowards: restricted to one dimension (the door track), and its contract is
  stated only for a non-negative maximum step.
- **Float rounding and infinities.** `real` arithmetic is exact. Infinite bounds are `None`.

=== FILE: button.dfy ===
/**
 * Button: a floor plate pressed by a pickupable item. It cues "Press" on its own animator and
 * opens every linked door of both kinds, skipping empty links.
 */
module Buttons {
  import opened Wrappers
  import opened Scene
  import Doors
  import DoorControllers

  /** The serialized links; None is an empty slot in the inspector array. */
  datatype Button = Button(hasAnimator: bool, linkedDoors: seq<Option<ObjId>>, linkedControllers: seq<Option<ObjId>>)

  /** The doors of the scene; an id absent from its map names a destroyed door. */
  datatype Doorways = Doorways(doors: map<ObjId, Doors.Door>, controllers: map<ObjId, DoorControllers.DoorController>)

  /** OpenDoor applied along the links: every linked door is opened, the others are untouched. */
  function OpenDoors(doors: map<ObjId, Doors.Door>, links: seq<Option<ObjId>>): (r: map<ObjId, Doors.Door>)
    ensures r.Keys == doors.Keys
    ensures forall id :: id in doors ==> r[id] == (if Some(id) in links then Doors.OpenDoor(doors[id]).door else doors[id])
    decreases |links|
  {
    if |links| == 0 then doors
    else
      var first := if links[0].Some? && links[0].value in doors
        then doors[links[0].value := Doors.OpenDoor(doors[links[0].value]).door] else doors;
      var r := OpenDoors(first, links[1..]);
      assert links == [links[0]] + links[1..];
      assert forall d: Doors.Door :: Doors.OpenDoor(Doors.OpenDoor(d).door).door == Doors.OpenDoor(d).door;
      r
  }

  /** The same fan-out for blockable doors, each starting its motion with frame time dt. */
  function OpenControllers(ctrls: map<ObjId, DoorControllers.DoorController>, links: seq<Option<ObjId>>, dt: real)
    : (r: map<ObjId, DoorControllers.DoorController>)
    ensures r.Keys == ctrls.Keys
    ensures forall id :: id in ctrls ==>
      r[id] == (if Some(id) in links then DoorControllers.OpenDoor(ctrls[id], dt).door else ctrls[id])
    decreases |links|
  {
    if |links| == 0 then ctrls
    else
      var first := if links[0].Some? && links[0].value in ctrls
        then ctrls[links[0].value := DoorControllers.OpenDoor(ctrls[links[0].value], dt).door] else ctrls;
      var r := OpenControllers(first, links[1..], dt);
      assert links == [links[0]] + links[1..];
      assert forall d: DoorControllers.DoorController ::
        (DoorControllers.OpenDoor(DoorControllers.OpenDoor(d, dt).door, dt).door == DoorControllers.OpenDoor(d, dt).door);
      r
  }

  datatype Press = Press(doorways: Doorways, pressCue: bool)

  /**
   * OnTriggerEnter: only an object carrying a Pickupable presses the button. Then the plate cues
   * "Press" if it has an animator, and every linked door of either kind is opened.
   */
  function OnTriggerEnter(b: Button, hasPickupable: bool, w: Doorways, dt: real): (r: Press)
    ensures r.pressCue <==> hasPickupable && b.hasAnimator
    ensures !hasPickupable ==> r.doorways == w
    ensures r.doorways.doors.Keys == w.doors.Keys && r.doorways.controllers.Keys == w.controllers.Keys
    ensures hasPickupable ==>
      && (forall id :: id in w.doors && Some(id) in b.linkedDoors ==>
            r.doorways.doors[id] == Doors.OpenDoor(w.doors[id]).door)
      && (forall id :: id in w.doors && Some(id) !in b.linkedDoors ==> r.doorways.doors[id] == w.doors[id])
      && (forall id :: id in w.controllers && Some(id) in b.linkedControllers ==>
            r.doorways.controllers[id] == DoorControllers.OpenDoor(w.controllers[id], dt).door)
      && (forall id :: id in w.controllers && Some(id) !in b.linkedControllers ==>
            r.doorways.controllers[id] == w.controllers[id])
  {
    if !hasPickupable then Press(w, false)
    else Press(Doorways(OpenDoors(w.doors, b.linkedDoors), OpenControllers(w.controllers, b.linkedControllers, dt)),
               b.hasAnimator)
  }

  /** A linked animated door is open after a press, whatever its state before. */
  lemma PressOpensLinkedDoor(b: Button, w: Doorways, dt: real, id: ObjId)
    requires id in w.doors && Some(id) in b.linkedDoors && w.doors[id].hasAnimator
    ensures OnTriggerEnter(b, true, w, dt).doorways.doors[id].isOpen
  {
  }

  /** A second press while the doors are still open changes no simple door. */
  lemma SecondPressKeepsDoors(b: Button, w: Doorways, dt: real)
    ensures var once := OnTriggerEnter(b, true, w, dt).doorways;
      OnTriggerEnter(b, true, once, dt).doorways.doors == once.doors
  {
    var once := OnTriggerEnter(b, true, w, dt).doorways;
    var twice := OnTriggerEnter(b, true, once, dt).doorways;
    forall id | id in once.doors
      ensures twice.doors[id] == once.doors[id]
    {
      Doors.OpenDoorIdempotent(w.doors[id]);
    }
  }
}

=== FILE: button_interaction.dfy ===
/**
 * ButtonInteraction: a wall button the active character presses with Interact from within range.
 * It is a one-shot latch: "ButtonDown" at once, "OpenDoor" on the door animator after a short delay.
 */
module ButtonInteractions {
  import opened Wrappers
  import opened Scene

  /** Where the ButtonSequence coroutine is. */
  datatype Sequence = NotStarted | WaitingForDoor | Finished

  datatype ButtonInteraction = ButtonInteraction(
    hasButtonAnimator: bool, hasDoorAnimator: bool, interactionRange: real,
    isPressed: bool, sequence: Sequence)

  const DefaultRange: real := 2.0
  const PressDelay: real := 0.2

  function Initial(hasButtonAnimator: bool, hasDoorAnimator: bool, range: real): ButtonInteraction
  {
    ButtonInteraction(hasButtonAnimator, hasDoorAnimator, range, false, NotStarted)
  }

  datatype Outcome = Outcome(button: ButtonInteraction, cues: seq<Cue>)

  /**
   * TryPressButton. activeDistance is the distance from the active character to the button,
   * None when no character is active. Pressed buttons, no active character and distances beyond
   * the range are ignored; a distance equal to the range still presses.
   */
  function TryPressButton(b: ButtonInteraction, activeDistance: Option<real>): (r: Outcome)
    ensures r.button.isPressed <==> b.isPressed || (activeDistance.Some? && activeDistance.value <= b.interactionRange)
    ensures r.button != b <==> !b.isPressed && activeDistance.Some? && activeDistance.value <= b.interactionRange
    ensures r.button == b ==> r.cues == []
    ensures r.button != b ==>
      r.button.sequence == WaitingForDoor && (r.cues == if b.hasButtonAnimator then ["ButtonDown"] else [])
  {
    if b.isPressed then Outcome(b, [])
    else if activeDistance.None? then Outcome(b, [])
    else if activeDistance.value > b.interactionRange then Outcome(b, [])
    else Outcome(b.(isPressed := true, sequence := WaitingForDoor), if b.hasButtonAnimator then ["ButtonDown"] else [])
  }

  /** The press delay ran out: the door animator, if any, is cued "OpenDoor" and the sequence ends. */
  function PressDelayElapsed(b: ButtonInteraction): (r: Outcome)
    ensures b.sequence != WaitingForDoor ==> r == Outcome(b, [])
    ensures b.sequence == WaitingForDoor ==>
      r.button == b.(sequence := Finished) && (r.cues == if b.hasDoorAnimator then ["OpenDoor"] else [])
  {
    if b.sequence != WaitingForDoor then Outcome(b, [])
    else Outcome(b.(sequence := Finished), if b.hasDoorAnimator then ["OpenDoor"] else [])
  }

  /** The latch flag and the coroutine agree: pressed exactly when the sequence has started. */
  predicate Coherent(b: ButtonInteraction) { b.isPressed <==> b.sequence != NotStarted }

  datatype Event = Interact(activeDistance: Option<real>) | DelayOver

  function Step(b: ButtonInteraction, e: Event): Outcome
  {
    match e
    case Interact(d) => TryPressButton(b, d)
    case DelayOver => PressDelayElapsed(b)
  }

  /** A run of events, with the cues of every step in order. */
  function Run(b: ButtonInteraction, events: seq<Event>): (r: Outcome)
    decreases |events|
  {
    if |events| == 0 then Outcome(b, [])
    else
      var first := Step(b, events[0]);
      var rest := Run(first.button, events[1..]);
      Outcome(rest.button, first.cues + rest.cues)
  }

  function Count(cues: seq<Cue>, c: Cue): nat
    decreases |cues|
  {
    if |cues| == 0 then 0 else (if cues[0] == c then 1 else 0) + Count(cues[1..], c)
  }

  lemma {:induction false} CountAppend(a: seq<Cue>, b: seq<Cue>, c: Cue)
    ensures Count(a + b, c) == Count(a, c) + Count(b, c)
    decreases |a|
  {
    if |a| == 0 {
      assert a + b == b;
    } else {
      assert (a + b)[1..] == a[1..] + b;
      CountAppend(a[1..], b, c);
    }
  }

  lemma StepKeepsCoherent(b: ButtonInteraction, e: Event)
    requires Coherent(b)
    ensures Coherent(Step(b, e).button)
  {
  }

  /**
   * The latch: over any run of events the button goes down at most once and the door is cued
   * at most once, and not at all once that has already happened.
   */
  lemma {:induction false} OneShot(b: ButtonInteraction, events: seq<Event>)
    requires Coherent(b)
    ensures Count(Run(b, events).cues, "ButtonDown") <= (if b.isPressed then 0 else 1)
    ensures Count(Run(b, events).cues, "OpenDoor") <= (if b.sequence == Finished then 0 else 1)
    ensures Coherent(Run(b, events).button)
    ensures b.isPressed ==> Run(b, events).button.isPressed
    decreases |events|
  {
    if |events| > 0 {
      var first := Step(b, events[0]);
      StepKeepsCoherent(b, events[0]);
      OneShot(first.button, events[1..]);
      CountAppend(first.cues, Run(first.button, events[1..]).cues, "ButtonDown");
      CountAppend(first.cues, Run(first.button, events[1..]).cues, "OpenDoor");
    }
  }
}

=== FILE: camera.dfy ===
/**
 * RoomCameraController: the current room, its focus point and horizontal bounds, the follow
 * target, and a history stack of rooms for back-navigation. The history is a sequence whose
 * last element is the top of the stack.
 */
module RoomCamera {
  import opened Wrappers
  import opened Scene
  import opened UnityMath

  datatype Camera = Camera(
    currentRoom: Option<Room>,
    focus: Option<Vec3>,         // targetFocusPoint's position
    follow: Option<ObjId>,       // followTarget
    history: seq<Room>,          // roomHistory, top last
    minX: Option<real>,          // None is float.NegativeInfinity
    maxX: Option<real>,          // None is float.PositiveInfinity
    position: Vec3,
    velocity: Vec3,
    offset: Vec3)                // the inspector's offset of the rig from the focus point

  /** The offset field's default value. */
  const DefaultOffset := Vec3(0.0, 3.0, -10.0)

  /** A camera as the scene starts: no room, no target, unbounded, at rest at position, with its authored offset. */
  function Initial(position: Vec3, offset: Vec3): Camera
  {
    Camera(None, None, None, [], None, None, position, Zero, offset)
  }

  /** A room the camera can adopt: an existing trigger with a focus point. */
  predicate Usable(room: Option<Room>) { room.Some? && room.value.HasFocus() }

  /** The camera looks at room: current room, focus point and bounds all come from it. */
  predicate Shows(cam: Camera, room: Room) {
    && cam.currentRoom == Some(room)
    && cam.focus == room.focus
    && cam.minX == Some(room.minX)
    && cam.maxX == Some(room.maxX)
  }

  function Adopt(cam: Camera, room: Room): (r: Camera)
    ensures Shows(r, room)
  {
    cam.(currentRoom := Some(room), focus := room.focus, minX := Some(room.minX), maxX := Some(room.maxX))
  }

  /**
   * MoveToRoom: an unusable room is ignored. Otherwise the old room is pushed when there was one
   * and it differs from the new one, and the camera adopts the new room.
   */
  function MoveToRoom(cam: Camera, room: Option<Room>): (r: Camera)
    ensures !Usable(room) ==> r == cam
    ensures Usable(room) ==>
      && Shows(r, room.value)
      && r.follow == cam.follow && r.position == cam.position && r.velocity == cam.velocity
      && (if cam.currentRoom.Some? && cam.currentRoom.value != room.value
          then r.history == cam.history + [cam.currentRoom.value]
          else r.history == cam.history)
  {
    if !Usable(room) then cam
    else
      var history := if cam.currentRoom.Some? && cam.currentRoom.value != room.value
                     then cam.history + [cam.currentRoom.value] else cam.history;
      Adopt(cam, room.value).(history := history)
  }

  /**
   * MoveBackToPreviousRoom: with an empty history nothing happens; otherwise the top room is
   * popped, and adopted only if it is usable.
   */
  function MoveBackToPreviousRoom(cam: Camera): (r: Camera)
    ensures |cam.history| == 0 ==> r == cam
    ensures |cam.history| > 0 ==> r.history == cam.history[..|cam.history| - 1]
    ensures |cam.history| > 0 && cam.history[|cam.history| - 1].HasFocus() ==>
      Shows(r, cam.history[|cam.history| - 1])
    ensures |cam.history| > 0 && !cam.history[|cam.history| - 1].HasFocus() ==>
      r == cam.(history := r.history)
    ensures r.follow == cam.follow && r.position == cam.position && r.velocity == cam.velocity
  {
    if |cam.history| == 0 then cam
    else
      var previous := cam.history[|cam.history| - 1];
      var popped := cam.(history := cam.history[..|cam.history| - 1]);
      if !previous.HasFocus() then popped else Adopt(popped, previous)
  }

  function SetFollowTarget(cam: Camera, target: Option<ObjId>): (r: Camera)
    ensures r.follow == target
    ensures r == cam.(follow := target)
  {
    cam.(follow := target)
  }

  /**
   * SetInstant: adopt a usable room without touching the history, jump straight to its focus
   * point plus the offset, and drop any smoothing velocity.
   */
  function SetInstant(cam: Camera, room: Option<Room>): (r: Camera)
    ensures !Usable(room) ==> r == cam
    ensures Usable(room) ==>
      && Shows(r, room.value)
      && r.history == cam.history
      && r.position == room.value.focus.value.Plus(cam.offset)
      && r.velocity == Zero
      && r.follow == cam.follow
  {
    if !Usable(room) then cam
    else Adopt(cam, room.value).(position := room.value.focus.value.Plus(cam.offset), velocity := Zero)
  }

  /**
   * The point LateUpdate smooths towards: nothing without a focus point; otherwise the focus plus
   * the offset, plus the parallax when a follow target is set, with x clamped to the bounds.
   * parallax is the engine's ClampMagnitude of the follow target's offset with its y zeroed, so
   * it is horizontal and the target's height is always the focus height plus the offset's.
   */
  function TargetPosition(cam: Camera, parallax: Vec3): (r: Option<Vec3>)
    requires parallax.y == 0.0
    ensures r.Some? <==> cam.focus.Some?
    ensures r.Some? ==> r.value.y == cam.focus.value.y + cam.offset.y
    ensures r.Some? && Ordered(cam.minX, cam.maxX) ==> Within(r.value.x, cam.minX, cam.maxX)
    ensures r.Some? ==>
      var raw := cam.focus.value.Plus(cam.offset).Plus(if cam.follow.Some? then parallax else Zero);
      && r.value.y == raw.y && r.value.z == raw.z
      && (Within(raw.x, cam.minX, cam.maxX) ==> r.value.x == raw.x)
  {
    if cam.focus.None? then None
    else
      var raw := cam.focus.value.Plus(cam.offset).Plus(if cam.follow.Some? then parallax else Zero);
      Some(raw.(x := Clamp(raw.x, cam.minX, cam.maxX)))
  }

  // ---------------------------------------------------------------- invariants and round trip

  /**
   * What the camera's own calls keep true: a current room is shown with its focus and bounds,
   * there is no history before the first room, and every room in the history is usable.
   */
  predicate Coherent(cam: Camera) {
    && (cam.currentRoom.Some? ==> cam.currentRoom.value.HasFocus() && Shows(cam, cam.currentRoom.value))
    && (cam.currentRoom.None? ==> |cam.history| == 0)
    && (forall i :: 0 <= i < |cam.history| ==> cam.history[i].HasFocus())
  }

  /** No room sits directly on top of itself in the history, nor on top of the current room. */
  predicate NoImmediateRepeat(cam: Camera) {
    && (forall i :: 0 < i < |cam.history| ==> cam.history[i - 1] != cam.history[i])
    && (|cam.history| > 0 && cam.currentRoom.Some? ==> cam.history[|cam.history| - 1] != cam.currentRoom.value)
  }

  lemma InitialIsCoherent(position: Vec3, offset: Vec3)
    ensures Coherent(Initial(position, offset)) && NoImmediateRepeat(Initial(position, offset))
  {
  }

  lemma MoveToRoomPreserves(cam: Camera, room: Option<Room>)
    requires Coherent(cam) && NoImmediateRepeat(cam)
    ensures Coherent(MoveToRoom(cam, room)) && NoImmediateRepeat(MoveToRoom(cam, room))
  {
    var r := MoveToRoom(cam, room);
    if Usable(room) && cam.currentRoom.Some? && cam.currentRoom.value != room.value {
      var n := |cam.history|;
      assert r.history == cam.history + [cam.currentRoom.value];
      forall i | 0 < i < |r.history|
        ensures r.history[i - 1] != r.history[i]
      {
        if i == n {
          assert r.history[i] == cam.currentRoom.value;
        } else {
          assert r.history[i] == cam.history[i] && r.history[i - 1] == cam.history[i - 1];
        }
      }
    }
  }

  lemma MoveBackPreserves(cam: Camera)
    requires Coherent(cam) && NoImmediateRepeat(cam)
    ensures Coherent(MoveBackToPreviousRoom(cam)) && NoImmediateRepeat(MoveBackToPreviousRoom(cam))
  {
    var n := |cam.history|;
    if n > 0 {
      var r := MoveBackToPreviousRoom(cam);
      assert cam.history[n - 1].HasFocus();
      if n > 1 {
        assert cam.history[n - 2] != cam.history[n - 1];
        assert r.history[n - 2] == cam.history[n - 2];
      }
    }
  }

  /** SetInstant keeps the camera coherent... */
  lemma SetInstantKeepsCoherent(cam: Camera, room: Option<Room>)
    requires Coherent(cam)
    ensures Coherent(SetInstant(cam, room))
  {
  }

  /** ...but, leaving the history alone, it can put the current room right under itself. */
  lemma SetInstantCanRepeatTop()
    ensures
      var a := Room(1, Some(Zero), -5.0, 5.0);
      var b := Room(2, Some(Zero), -5.0, 5.0);
      var cam := MoveToRoom(MoveToRoom(Initial(Zero, DefaultOffset), Some(a)), Some(b));
      && NoImmediateRepeat(cam)
      && !NoImmediateRepeat(SetInstant(cam, Some(a)))
  {
    var a := Room(1, Some(Zero), -5.0, 5.0);
    var b := Room(2, Some(Zero), -5.0, 5.0);
    var cam := MoveToRoom(MoveToRoom(Initial(Zero, DefaultOffset), Some(a)), Some(b));
    assert cam.history == [a];
  }

  /** After moving from a usable room to a different one, the history's top is the room left. */
  lemma MoveToRoomRemembersPrevious(cam: Camera, room: Room)
    requires cam.currentRoom.Some? && Usable(Some(room)) && cam.currentRoom.value != room
    ensures var r := MoveToRoom(cam, Some(room));
      && |r.history| > 0
      && r.history[|r.history| - 1] == cam.currentRoom.value
      && r.history[|r.history| - 1] != r.currentRoom.value
  {
  }

  /** Entering the room already shown leaves the history as it was. */
  lemma ReenterKeepsHistory(cam: Camera, room: Room)
    requires cam.currentRoom == Some(room)
    ensures MoveToRoom(cam, Some(room)).history == cam.history
  {
  }

  /** Moving to a different usable room and back restores the camera exactly. */
  lemma MoveThenBackRestores(cam: Camera, room: Room)
    requires Coherent(cam) && cam.currentRoom.Some? && Usable(Some(room)) && cam.currentRoom.value != room
    ensures MoveBackToPreviousRoom(MoveToRoom(cam, Some(room))) == cam
  {
    var moved := MoveToRoom(cam, Some(room));
    assert moved.history[..|moved.history| - 1] == cam.history;
  }
}

=== FILE: characters.dfy ===
/**
 * The two ControllableCharacter variants and the calls other components make on any character:
 * SetActive (overridden by Follower), the room back-reference, and the whistle hand-off.
 */
module Characters {
  import opened Wrappers
  import opened Scene
  import Controllable
  import Players
  import Followers

  datatype Character = PlayerChar(player: Players.Player) | FollowerChar(follower: Followers.Follower) {
    function Base(): Controllable.Controllable {
      match this
      case PlayerChar(p) => p.base
      case FollowerChar(f) => f.base
    }

    predicate IsActive() { Base().isActiveCharacter }

    function CurrentRoom(): Option<Room> { Controllable.GetCurrentRoom(Base()) }
  }

  /** The characters of the scene by identity. */
  type Cast = map<ObjId, Character>

  /** SetActive with Follower's override dispatched by variant. */
  function SetActive(c: Character, active: bool): (r: Character)
    ensures r.IsActive() == active
    ensures r.CurrentRoom() == c.CurrentRoom()
    ensures r.PlayerChar? == c.PlayerChar?
    ensures c.PlayerChar? ==> r.player == c.player.(base := r.player.base)
    ensures c.FollowerChar? ==> r.follower == Followers.SetActive(c.follower, active)
  {
    match c
    case PlayerChar(p) => PlayerChar(p.(base := Controllable.SetActive(p.base, active)))
    case FollowerChar(f) => FollowerChar(Followers.SetActive(f, active))
  }

  function SetCurrentRoom(c: Character, room: Option<Room>): (r: Character)
    ensures r.CurrentRoom() == room
    ensures r.IsActive() == c.IsActive()
    ensures r.PlayerChar? == c.PlayerChar?
    ensures c.PlayerChar? ==> r.player == c.player.(base := r.player.base)
    ensures c.FollowerChar? ==> r.follower == c.follower.(base := r.follower.base)
  {
    match c
    case PlayerChar(p) => PlayerChar(p.(base := Controllable.SetCurrentRoom(p.base, room)))
    case FollowerChar(f) => FollowerChar(f.(base := Controllable.SetCurrentRoom(f.base, room)))
  }

  /**
   * Whistle on character who: a player forwards it to its companion when that reference names a
   * follower; a follower starts following. Nobody else changes.
   */
  function Whistle(cast: Cast, who: ObjId): (r: Cast)
    requires who in cast
    ensures r.Keys == cast.Keys
    ensures cast[who].FollowerChar? ==> r == cast[who := FollowerChar(Followers.Whistle(cast[who].follower))]
    ensures cast[who].PlayerChar? ==>
      var mate := cast[who].player.companion;
      if mate.Some? && mate.value in cast && cast[mate.value].FollowerChar?
      then
        && r[mate.value].FollowerChar? && r[mate.value].follower.isFollowing
        && forall id :: id in cast && id != mate.value ==> r[id] == cast[id]
      else r == cast
  {
    match cast[who]
    case FollowerChar(f) => cast[who := FollowerChar(Followers.Whistle(f))]
    case PlayerChar(p) =>
      if p.companion.Some? && p.companion.value in cast && cast[p.companion.value].FollowerChar?
      then cast[p.companion.value := FollowerChar(Followers.Whistle(cast[p.companion.value].follower))]
      else cast
  }
}

=== FILE: controllable.dfy ===
/**
 * ControllableCharacter: the part of every character the switch manager and the room triggers
 * see, namely the activation flag and the room the character last entered.
 */
module Controllable {
  import opened Wrappers
  import opened Scene

  datatype Controllable = Controllable(isActiveCharacter: bool, currentRoom: Option<Room>)

  /** Both fields start at their C# defaults. */
  const Initial := Controllable(false, None)

  function SetCurrentRoom(c: Controllable, room: Option<Room>): (r: Controllable)
    ensures GetCurrentRoom(r) == room
    ensures r.isActiveCharacter == c.isActiveCharacter
  {
    c.(currentRoom := room)
  }

  function GetCurrentRoom(c: Controllable): Option<Room> { c.currentRoom }

  function SetActive(c: Controllable, active: bool): (r: Controllable)
    ensures r.isActiveCharacter == active
    ensures GetCurrentRoom(r) == GetCurrentRoom(c)
  {
    c.(isActiveCharacter := active)
  }

  /** The virtual actions whose base implementations are empty. */
  datatype Action = Move(input: Vec2) | Jump | PullStart | PullStop | Interact | Throw | Whistle

  /** The base class's version of an action: it changes nothing. */
  function BaseAct(c: Controllable, a: Action): (r: Controllable)
    ensures r.isActiveCharacter == c.isActiveCharacter
    ensures GetCurrentRoom(r) == GetCurrentRoom(c)
  {
    c
  }

  /** The calls a character's base state can receive, for reasoning about call histories. */
  datatype Call = CallSetActive(active: bool) | CallSetCurrentRoom(room: Option<Room>) | CallAct(a: Action)

  function Step(c: Controllable, call: Call): Controllable
  {
    match call
    case CallSetActive(b) => SetActive(c, b)
    case CallSetCurrentRoom(room) => SetCurrentRoom(c, room)
    case CallAct(a) => BaseAct(c, a)
  }

  function Apply(c: Controllable, calls: seq<Call>): Controllable
    decreases |calls|
  {
    if |calls| == 0 then c else Apply(Step(c, calls[0]), calls[1..])
  }

  /** The argument of the last SetCurrentRoom in calls, or fallback when there is none. */
  function LastRoomSet(calls: seq<Call>, fallback: Option<Room>): Option<Room>
  {
    if |calls| == 0 then fallback
    else if calls[|calls| - 1].CallSetCurrentRoom? then calls[|calls| - 1].room
    else LastRoomSet(calls[..|calls| - 1], fallback)
  }

  /** The argument of the last SetActive in calls, or fallback when there is none. */
  function LastActivation(calls: seq<Call>, fallback: bool): bool
  {
    if |calls| == 0 then fallback
    else if calls[|calls| - 1].CallSetActive? then calls[|calls| - 1].active
    else LastActivation(calls[..|calls| - 1], fallback)
  }

  /** Applying calls one more call at the end. */
  lemma {:induction false} ApplySnoc(c: Controllable, calls: seq<Call>, last: Call)
    ensures Apply(c, calls + [last]) == Apply(Apply(c, calls), [last])
    decreases |calls|
  {
    if |calls| == 0 {
      assert calls + [last] == [last];
    } else {
      assert (calls + [last])[0] == calls[0];
      assert (calls + [last])[1..] == calls[1..] + [last];
      ApplySnoc(Step(c, calls[0]), calls[1..], last);
    }
  }

  /**
   * Whatever mix of calls a character receives, GetCurrentRoom answers the most recent
   * SetCurrentRoom argument and the flag is the most recent SetActive argument: the two
   * setters never disturb each other and the base actions disturb neither.
   */
  lemma {:induction false} GetCurrentRoomIsLastSet(c: Controllable, calls: seq<Call>)
    ensures GetCurrentRoom(Apply(c, calls)) == LastRoomSet(calls, c.currentRoom)
    ensures Apply(c, calls).isActiveCharacter == LastActivation(calls, c.isActiveCharacter)
    decreases |calls|
  {
    if |calls| > 0 {
      var init, last := calls[..|calls| - 1], calls[|calls| - 1];
      assert calls == init + [last];
      ApplySnoc(c, init, last);
      GetCurrentRoomIsLastSet(c, init);
    }
  }
}

=== FILE: door.dfy ===
/**
 * Door: an animator-driven door. Opening cues "Open" and schedules one close timer; when the timer
 * fires it cues "doorClose". The pending timers are counted so the schedule can be reasoned about.
 */
module Doors {
  import opened Scene

  /** pendingCloses counts the CloseDoorAfterDelay coroutines still waiting. */
  datatype Door = Door(hasAnimator: bool, isOpen: bool, pendingCloses: nat)

  const DefaultCloseDelay: real := 2.0

  function Initial(hasAnimator: bool): Door { Door(hasAnimator, false, 0) }

  datatype Outcome = Outcome(door: Door, cues: seq<Cue>)

  /** OpenDoor acts only with an animator and on a closed door; otherwise it is ignored. */
  function OpenDoor(d: Door): (r: Outcome)
    ensures r.cues != [] <==> d.hasAnimator && !d.isOpen
    ensures r.cues == [] ==> r.door == d
    ensures r.cues != [] ==> r.cues == ["Open"] && r.door == d.(isOpen := true, pendingCloses := d.pendingCloses + 1)
    ensures d.hasAnimator ==> r.door.isOpen
  {
    if d.hasAnimator && !d.isOpen then Outcome(d.(isOpen := true, pendingCloses := d.pendingCloses + 1), ["Open"])
    else Outcome(d, [])
  }

  /**
   * One pending close timer fires: it closes an open door (cue "doorClose") and is gone.
   * With no timer pending there is nothing to fire.
   */
  function CloseDelayElapsed(d: Door): (r: Outcome)
    ensures d.pendingCloses == 0 ==> r == Outcome(d, [])
    ensures d.pendingCloses > 0 ==>
      && r.door.pendingCloses == d.pendingCloses - 1 && r.door.isOpen == (d.isOpen && !d.hasAnimator)
      && r.door.hasAnimator == d.hasAnimator
    ensures r.cues != [] <==> d.pendingCloses > 0 && d.hasAnimator && d.isOpen
    ensures r.cues != [] ==> r.cues == ["doorClose"]
  {
    if d.pendingCloses == 0 then Outcome(d, [])
    else
      var fired := d.(pendingCloses := d.pendingCloses - 1);
      if d.hasAnimator && d.isOpen then Outcome(fired.(isOpen := false), ["doorClose"]) else Outcome(fired, [])
  }

  /** The schedule invariant: the door is open exactly while one close timer is pending. */
  predicate Scheduled(d: Door)
  {
    && (d.isOpen ==> d.hasAnimator)
    && d.pendingCloses == (if d.isOpen then 1 else 0)
  }

  lemma InitialScheduled(hasAnimator: bool)
    ensures Scheduled(Initial(hasAnimator))
  {
  }

  lemma EventsKeepScheduled(d: Door)
    requires Scheduled(d)
    ensures Scheduled(OpenDoor(d).door)
    ensures Scheduled(CloseDelayElapsed(d).door)
  {
  }

  /** Opening an open door does nothing, so repeated button presses are harmless. */
  lemma OpenDoorIdempotent(d: Door)
    ensures OpenDoor(OpenDoor(d).door) == Outcome(OpenDoor(d).door, [])
  {
  }

  /** Under the schedule invariant, opening a closed door and letting its timer fire restores it. */
  lemma OpenThenCloseRestores(d: Door)
    requires Scheduled(d) && !d.isOpen && d.hasAnimator
    ensures CloseDelayElapsed(OpenDoor(d).door) == Outcome(d, ["doorClose"])
  {
  }
}

=== FILE: door_controller.dfy ===
/**
 * DoorController: a sliding door that opens on request, waits, and then closes only once nothing
 * blocks it. The source's coroutines become explicit phases:
 *   Closed -OpenDoor-> Opening -arrive-> OpenWaiting -delay-> TryingClose -unblocked-> Closing -arrive-> Closed
 * The door's position is its coordinate along the straight track between the two transforms.
 */
module DoorControllers {
  import opened Wrappers
  import opened Scene
  import opened UnityMath

  datatype Phase = Closed | Opening | OpenWaiting | TryingClose | Closing

  datatype Config = Config(closedPos: real, openPos: real, moveSpeed: real, closeDelay: real, hasAnimator: bool)

  const DefaultMoveSpeed: real := 2.0
  const DefaultCloseDelay: real := 1.0

  /** MoveDoor stops stepping once the squared distance to the target is at most this. */
  const ArriveEpsilon: real := 0.001

  datatype DoorController = DoorController(cfg: Config, phase: Phase, pos: real)

  function Initial(cfg: Config): DoorController { DoorController(cfg, Closed, cfg.closedPos) }

  /** The isOpen field: set when opening starts, cleared when closing starts. */
  predicate IsOpen(d: DoorController) { d.phase == Opening || d.phase == OpenWaiting || d.phase == TryingClose }

  /** The isMoving field: true while a MoveDoor coroutine is stepping. */
  predicate IsMoving(d: DoorController) { d.phase == Opening || d.phase == Closing }

  predicate Far(pos: real, target: real) { (pos - target) * (pos - target) > ArriveEpsilon }

  /**
   * IsBlocked: some collider overlapping the door on the blocker layer belongs to another object.
   * hits are the overlapping colliders' game objects.
   */
  function IsBlocked(hits: seq<ObjId>, self: ObjId): (b: bool)
    ensures b <==> exists i :: 0 <= i < |hits| && hits[i] != self
    decreases |hits|
  {
    if |hits| == 0 then false
    else if hits[0] != self then true
    else
      var rest := IsBlocked(hits[1..], self);
      assert forall i :: 0 < i < |hits| ==> hits[i] == hits[1..][i - 1];
      rest
  }

  datatype Outcome = Outcome(door: DoorController, cues: seq<Cue>)

  /**
   * One resumption of MoveDoor: step towards the target at moveSpeed * dt while farther than the
   * epsilon, otherwise snap exactly onto it and leave the moving phase (an opened door starts its
   * close delay, a closed one rests).
   */
  function MotionStep(d: DoorController, dt: real): (r: DoorController)
    requires IsMoving(d)
    ensures r.cfg == d.cfg
    ensures r.phase == d.phase || r.phase == (if d.phase == Opening then OpenWaiting else Closed)
    ensures r.phase != d.phase ==> r.pos == (if d.phase == Opening then d.cfg.openPos else d.cfg.closedPos)
  {
    var target := if d.phase == Opening then d.cfg.openPos else d.cfg.closedPos;
    if Far(d.pos, target) then d.(pos := MoveTowards(d.pos, target, d.cfg.moveSpeed * dt))
    else d.(pos := target, phase := if d.phase == Opening then OpenWaiting else Closed)
  }

  /**
   * OpenDoor: refused while open or moving, so it only acts on a closed door at rest. Then the
   * door counts as open, cues "Open" if it has an animator, and its opening motion takes its
   * first step at once.
   */
  function OpenDoor(d: DoorController, dt: real): (r: Outcome)
    ensures IsOpen(d) || IsMoving(d) ==> r == Outcome(d, [])
    ensures !IsOpen(d) && !IsMoving(d) ==>
      && d.phase == Closed
      && IsOpen(r.door)
      && (r.cues == if d.cfg.hasAnimator then ["Open"] else [])
      && (Far(d.pos, d.cfg.openPos) ==> r.door.phase == Opening && IsMoving(r.door))
      && (!Far(d.pos, d.cfg.openPos) ==> r.door.phase == OpenWaiting && r.door.pos == d.cfg.openPos)
    ensures r.door.cfg == d.cfg
  {
    if IsOpen(d) || IsMoving(d) then Outcome(d, [])
    else Outcome(MotionStep(d.(phase := Opening), dt), if d.cfg.hasAnimator then ["Open"] else [])
  }

  /** Closing starts: cue "doorClose", first closing step at once; isOpen is already false. */
  function StartClosing(d: DoorController, dt: real): (r: Outcome)
    ensures !IsOpen(r.door)
    ensures r.door.phase == Closing || (r.door.phase == Closed && r.door.pos == d.cfg.closedPos)
  {
    Outcome(MotionStep(d.(phase := Closing), dt), if d.cfg.hasAnimator then ["doorClose"] else [])
  }

  /**
   * The close delay has run out: TryClose checks for blockers at once and either keeps polling
   * or starts closing. In any other phase nothing is waiting for this event.
   */
  function CloseDelayElapsed(d: DoorController, dt: real, hits: seq<ObjId>, self: ObjId): (r: Outcome)
    ensures d.phase != OpenWaiting ==> r == Outcome(d, [])
    ensures d.phase == OpenWaiting && IsBlocked(hits, self) ==> r == Outcome(d.(phase := TryingClose), [])
    ensures d.phase == OpenWaiting && !IsBlocked(hits, self) ==> !IsOpen(r.door)
  {
    if d.phase != OpenWaiting then Outcome(d, [])
    else if IsBlocked(hits, self) then Outcome(d.(phase := TryingClose), [])
    else StartClosing(d, dt)
  }

  /**
   * One frame: a moving door takes a motion step; a door trying to close polls the blockers
   * again; a closed or waiting door is untouched.
   */
  function Frame(d: DoorController, dt: real, hits: seq<ObjId>, self: ObjId): (r: Outcome)
    ensures d.phase == Closed || d.phase == OpenWaiting ==> r == Outcome(d, [])
    ensures d.phase == Opening ==> r.door.phase == Opening || (r.door.phase == OpenWaiting && r.door.pos == d.cfg.openPos)
    ensures d.phase == Closing ==> r.door.phase == Closing || (r.door.phase == Closed && r.door.pos == d.cfg.closedPos)
    ensures d.phase == TryingClose && IsBlocked(hits, self) ==> r == Outcome(d, [])
    ensures d.phase == TryingClose && !IsBlocked(hits, self) ==> !IsOpen(r.door)
    ensures r.door.cfg == d.cfg
  {
    match d.phase
    case Closed => Outcome(d, [])
    case OpenWaiting => Outcome(d, [])
    case Opening => Outcome(MotionStep(d, dt), [])
    case Closing => Outcome(MotionStep(d, dt), [])
    case TryingClose => if IsBlocked(hits, self) then Outcome(d, []) else StartClosing(d, dt)
  }

  // ---------------------------------------------------------------- properties

  /** The events a door receives. */
  datatype Event = OpenRequest(dt: real) | Tick(dt: real) | DelayOver(dt: real)

  function Step(d: DoorController, e: Event, hits: seq<ObjId>, self: ObjId): DoorController
  {
    match e
    case OpenRequest(dt) => OpenDoor(d, dt).door
    case Tick(dt) => Frame(d, dt, hits, self).door
    case DelayOver(dt) => CloseDelayElapsed(d, dt, hits, self).door
  }

  /** While something blocks the door, no event takes an open door out of the open state. */
  lemma BlockedDoorStaysOpen(d: DoorController, e: Event, hits: seq<ObjId>, self: ObjId)
    requires IsOpen(d) && IsBlocked(hits, self)
    ensures IsOpen(Step(d, e, hits, self))
  {
  }

  /** A closing door refuses OpenDoor: it is not open, but it is moving. */
  lemma ClosingRefusesOpen(d: DoorController, dt: real)
    requires d.phase == Closing
    ensures !IsOpen(d) && IsMoving(d)
    ensures OpenDoor(d, dt) == Outcome(d, [])
  {
  }

  /** Closing begins only out of the close-delay wait or the blocker poll. */
  lemma ClosingFollowsWaiting(d: DoorController, e: Event, hits: seq<ObjId>, self: ObjId)
    requires d.phase != Closing && Step(d, e, hits, self).phase == Closing
    ensures d.phase == OpenWaiting || d.phase == TryingClose
  {
  }

  function Frames(d: DoorController, dt: real, hits: seq<ObjId>, self: ObjId, n: nat): DoorController
    decreases n
  {
    if n == 0 then d else Frames(Frame(d, dt, hits, self).door, dt, hits, self, n - 1)
  }

  /** The blocker poll has no timeout: a door kept blocked stays in it for any number of frames. */
  lemma {:induction false} BlockedPollNeverEnds(d: DoorController, dt: real, hits: seq<ObjId>, self: ObjId, n: nat)
    requires d.phase == TryingClose && IsBlocked(hits, self)
    ensures Frames(d, dt, hits, self, n) == d
    decreases n
  {
    if n > 0 {
      BlockedPollNeverEnds(Frame(d, dt, hits, self).door, dt, hits, self, n - 1);
    }
  }

  /**
   * An opening door with a positive step moveSpeed * dt arrives after at most n + 1 frames when
   * n steps cover the distance, and from then on waits fully open at the open position.
   */
  lemma {:induction false} OpeningArrives(d: DoorController, dt: real, n: nat)
    requires d.phase == Opening && d.cfg.moveSpeed * dt > 0.0
    requires (n as real) * (d.cfg.moveSpeed * dt) >= Abs(d.cfg.openPos - d.pos)
    ensures var r := Frames(d, dt, [], 0, n + 1); r.phase == OpenWaiting && r.pos == d.cfg.openPos
    decreases n
  {
    var step := d.cfg.moveSpeed * dt;
    var next := Frame(d, dt, [], 0).door;
    if !Far(d.pos, d.cfg.openPos) {
      WaitingStays(next, dt, n);
    } else {
      assert next.phase == Opening;
      assert next.pos == MoveTowards(d.pos, d.cfg.openPos, step);
      if n == 0 {
        assert false;
      } else {
        var k := (n - 1) as real;
        assert k * step + step == (n as real) * step;
        OpeningArrives(next, dt, n - 1);
      }
    }
  }

  /** A door waiting fully open ignores frames. */
  lemma {:induction false} WaitingStays(d: DoorController, dt: real, n: nat)
    requires d.phase == OpenWaiting
    ensures Frames(d, dt, [], 0, n) == d
    decreases n
  {
    if n > 0 {
      WaitingStays(Frame(d, dt, [], 0).door, dt, n - 1);
    }
  }

  /** A second OpenDoor right after the first changes nothing, so duplicate requests are harmless. */
  lemma OpenDoorIdempotent(d: DoorController, dt: real, dt2: real)
    ensures OpenDoor(OpenDoor(d, dt).door, dt2) == Outcome(OpenDoor(d, dt).door, [])
  {
  }
}

=== FILE: follower.dfy ===
/**
 * Follower: the companion. Under manual control it moves, pulls, pushes and carries like the
 * player (but never pushes kinematic bodies and has no room clamp); otherwise it walks to a lever
 * or follows the player with NavMesh pathing. NavMesh status and the player's whereabouts are inputs.
 */
module Followers {
  import opened Wrappers
  import opened Scene
  import opened UnityMath
  import Controllable
  import Locomotion
  import opened Manipulation

  /** The serialized tuning fields of Follower, with their defaults below. */
  datatype Config = Config(
    stopDistance: real, walkDistance: real, runDistance: real, walkSpeed: real, runSpeed: real,
    manualMoveSpeed: real, sprintSpeed: real, jumpHeight: real, gravity: real,
    pushForce: real, pullSpeed: real, pullDistance: real,
    pickupRange: real, throwForce: real, throwUpwardForce: real)

  const Defaults := Config(1.5, 3.0, 6.0, 1.5, 3.0, 2.0, 4.0, 2.0, -9.81, 5.0, 2.0, 1.5, 2.0, 10.0, 2.0)

  /** The NavMeshAgent component's switches the script sets. */
  datatype Agent = Agent(enabled: bool, isStopped: bool, destination: Option<Vec3>)

  /** The follower's own Rigidbody settings. */
  datatype OwnBody = OwnBody(isKinematic: bool, freezeRotation: bool)

  datatype Follower = Follower(
    base: Controllable.Controllable,
    vertical: Locomotion.Vertical,
    isMoving: bool,
    isSprinting: bool,
    hands: Hands,
    isFollowing: bool,
    goingToLever: bool,
    agent: Option<Agent>,
    body: Option<OwnBody>)

  function Initial(agent: Option<Agent>, body: Option<OwnBody>): Follower
  {
    Follower(Controllable.Initial, Locomotion.Rest, false, false, EmptyHands, false, false, agent, body)
  }

  // ---------------------------------------------------------------- activation

  /**
   * SetActive: under player control the follower stops following, its agent is switched off and
   * its body becomes kinematic with rotation frozen; handed back to the AI, the agent is switched
   * on and the body is dynamic again.
   */
  function SetActive(f: Follower, active: bool): (r: Follower)
    ensures r.base.isActiveCharacter == active
    ensures Controllable.GetCurrentRoom(r.base) == Controllable.GetCurrentRoom(f.base)
    ensures r.agent.Some? == f.agent.Some? && r.body.Some? == f.body.Some?
    ensures active ==>
      && !r.isFollowing
      && (r.agent.Some? ==> !r.agent.value.enabled)
      && (r.body.Some? ==> r.body.value.isKinematic && r.body.value.freezeRotation)
    ensures !active ==>
      && r.isFollowing == f.isFollowing
      && (r.agent.Some? ==> r.agent.value.enabled)
      && (r.body.Some? ==> !r.body.value.isKinematic && r.body.value.freezeRotation == f.body.value.freezeRotation)
    ensures r == f.(base := r.base, isFollowing := r.isFollowing, agent := r.agent, body := r.body)
  {
    var g := f.(base := Controllable.SetActive(f.base, active));
    if active then
      g.(isFollowing := false,
         agent := if f.agent.Some? then Some(f.agent.value.(enabled := false)) else None,
         body := if f.body.Some? then Some(OwnBody(true, true)) else None)
    else
      g.(agent := if f.agent.Some? then Some(f.agent.value.(enabled := true)) else None,
         body := if f.body.Some? then Some(f.body.value.(isKinematic := false)) else None)
  }

  // ---------------------------------------------------------------- whistle and lever

  function Whistle(f: Follower): (r: Follower)
    ensures r.isFollowing
    ensures r == f.(isFollowing := r.isFollowing)
  {
    f.(isFollowing := true)
  }

  /** GoToLever: needs an agent; it interrupts following and heads for the target. */
  function GoToLever(f: Follower, target: Vec3): (r: Follower)
    ensures f.agent.None? ==> r == f
    ensures f.agent.Some? ==>
      && !r.isFollowing && r.goingToLever
      && r.agent == Some(f.agent.value.(isStopped := false, destination := Some(target)))
    ensures r == f.(isFollowing := r.isFollowing, goingToLever := r.goingToLever, agent := r.agent)
  {
    if f.agent.None? then f
    else f.(isFollowing := false, goingToLever := true,
            agent := Some(f.agent.value.(isStopped := false, destination := Some(target))))
  }

  /** The NavMeshAgent's path status for this frame. */
  datatype NavStatus = NavStatus(pathPending: bool, remainingDistance: real, stoppingDistance: real)

  predicate Arrived(nav: NavStatus) {
    !nav.pathPending && nav.remainingDistance <= nav.stoppingDistance
  }

  /** HandleGoToLever: on arrival the trip ends and the agent stops; until then nothing changes. */
  function HandleGoToLever(f: Follower, nav: NavStatus): (r: Follower)
    ensures !f.goingToLever || f.agent.None? ==> r == f
    ensures f.goingToLever && f.agent.Some? ==>
      && (r.goingToLever <==> !Arrived(nav))
      && (Arrived(nav) ==> r.agent == Some(f.agent.value.(isStopped := true)))
      && (!Arrived(nav) ==> r == f)
    ensures r == f.(goingToLever := r.goingToLever, agent := r.agent)
  {
    if !f.goingToLever || f.agent.None? then f
    else if Arrived(nav) then f.(goingToLever := false, agent := Some(f.agent.value.(isStopped := true)))
    else f
  }

  // ---------------------------------------------------------------- follow AI

  /** Where the player stands and how far away horizontally, when the player reference is set. */
  datatype Sighting = Sighting(position: Vec3, distance: real)

  /**
   * The follow speed at distance d: the walk speed at the stop distance rising linearly to the
   * run speed at the run distance, and no further.
   */
  function ChaseSpeed(cfg: Config, d: real): (s: real)
    ensures cfg.walkSpeed <= cfg.runSpeed ==> cfg.walkSpeed <= s <= cfg.runSpeed
  {
    Lerp(cfg.walkSpeed, cfg.runSpeed, InverseLerp(cfg.stopDistance, cfg.runDistance, d))
  }

  /** Farther away never means slower. */
  lemma ChaseSpeedMonotone(cfg: Config, d: real, e: real)
    requires cfg.walkSpeed <= cfg.runSpeed && cfg.stopDistance < cfg.runDistance && d <= e
    ensures ChaseSpeed(cfg, d) <= ChaseSpeed(cfg, e)
  {
    InverseLerpMonotone(cfg.stopDistance, cfg.runDistance, d, e);
    LerpMonotone(cfg.walkSpeed, cfg.runSpeed,
      InverseLerp(cfg.stopDistance, cfg.runDistance, d), InverseLerp(cfg.stopDistance, cfg.runDistance, e));
  }

  /** At or beyond the run distance the follower runs at full speed. */
  lemma ChaseSpeedTopsOut(cfg: Config, d: real)
    requires cfg.stopDistance < cfg.runDistance <= d
    ensures ChaseSpeed(cfg, d) == cfg.runSpeed
  {
  }

  /**
   * The follower's own motion while chasing without a NavMeshAgent: it moves at this fraction of
   * the interpolated chase speed. With an agent the agent walks at its own speed instead.
   */
  const AgentlessSpeedFactor: real := 0.7

  /**
   * controllerSpeed is the speed of the CharacterController.Move the script issues itself, along
   * the horizontal direction to the player; None when nothing is moved that way.
   */
  datatype FollowStep = FollowStep(follower: Follower, controllerSpeed: Option<real>)

  /**
   * HandleFollowAI: while following a known player, chase when farther than the stop distance
   * and stop following once within it. The chase hands the player's position to the agent when
   * there is one (re-enabling it); without an agent the follower moves itself at
   * AgentlessSpeedFactor times the chase speed.
   */
  function HandleFollowAI(f: Follower, cfg: Config, player: Option<Sighting>): (r: FollowStep)
    ensures !f.isFollowing || player.None? ==> r == FollowStep(f, None)
    ensures f.isFollowing && player.Some? && player.value.distance <= cfg.stopDistance ==>
      r == FollowStep(f.(isFollowing := false), None)
    ensures f.isFollowing && player.Some? && player.value.distance > cfg.stopDistance ==>
      && r.follower.isFollowing
      && (f.agent.Some? ==>
            && r.controllerSpeed.None?
            && r.follower.agent == Some(f.agent.value.(enabled := true, destination := Some(player.value.position))))
      && (f.agent.None? ==>
            && r.controllerSpeed == Some(AgentlessSpeedFactor * ChaseSpeed(cfg, player.value.distance))
            && (cfg.walkSpeed <= cfg.runSpeed ==>
                  AgentlessSpeedFactor * cfg.walkSpeed <= r.controllerSpeed.value <= AgentlessSpeedFactor * cfg.runSpeed))
    ensures r.follower == f.(isFollowing := r.follower.isFollowing, agent := r.follower.agent)
    ensures r.follower.agent.Some? == f.agent.Some?
  {
    if !f.isFollowing || player.None? then FollowStep(f, None)
    else if player.value.distance > cfg.stopDistance then
      if f.agent.Some? then
        FollowStep(f.(agent := Some(f.agent.value.(enabled := true, destination := Some(player.value.position)))), None)
      else
        FollowStep(f, Some(AgentlessSpeedFactor * ChaseSpeed(cfg, player.value.distance)))
    else FollowStep(f.(isFollowing := false), None)
  }

  // ---------------------------------------------------------------- manual control

  datatype MoveOutcome = MoveOutcome(follower: Follower, speed: real)

  /** Move: the same speed choice and pull step as the player, without any horizontal clamp. */
  function Move(f: Follower, cfg: Config, input: Vec2, probe: CubeProbe): (r: MoveOutcome)
    ensures r.follower.isMoving <==> input.SqrMagnitude() > MoveThreshold
    ensures f.hands.isPulling && f.hands.pulledCube.Some? && probe.At? ==> r.speed == cfg.pullSpeed
    ensures !(f.hands.isPulling && f.hands.pulledCube.Some? && probe.At?) ==>
      r.speed == (if f.isSprinting then cfg.sprintSpeed else cfg.manualMoveSpeed) && r.follower.hands == f.hands
    ensures r.follower.hands.isPulling ==> f.hands.isPulling
    ensures Consistent(f.hands) ==> Consistent(r.follower.hands)
    ensures r.follower == f.(isMoving := r.follower.isMoving, hands := r.follower.hands)
  {
    var pulling := f.hands.isPulling && f.hands.pulledCube.Some? && probe.At?;
    var speed := if pulling then cfg.pullSpeed else if f.isSprinting then cfg.sprintSpeed else cfg.manualMoveSpeed;
    var hands := if pulling then HandlePulling(f.hands, probe, cfg.pullDistance) else f.hands;
    MoveOutcome(f.(isMoving := input.SqrMagnitude() > MoveThreshold, hands := hands), speed)
  }

  /** root is the engine's Mathf.Sqrt(jumpHeight * -2 * gravity). */
  function Jump(f: Follower, cfg: Config, root: real): (r: Follower)
    requires root >= 0.0 && root * root == cfg.jumpHeight * -2.0 * cfg.gravity
    ensures !f.base.isActiveCharacter || !f.vertical.isGrounded ==> r == f
    ensures f.base.isActiveCharacter && f.vertical.isGrounded ==>
      && r.vertical.velocityY >= 0.0
      && r.vertical.velocityY * r.vertical.velocityY == -2.0 * cfg.jumpHeight * cfg.gravity
      && r == f.(vertical := r.vertical)
  {
    f.(vertical := Locomotion.Jump(f.vertical, f.base.isActiveCharacter, cfg.jumpHeight, cfg.gravity, root))
  }

  function PullStart(f: Follower, forwardHit: Option<RayHit>): (r: Follower)
    ensures CanPull(forwardHit) ==> r.hands.isPulling && r.hands.pulledCube == Some(forwardHit.value.body.value.id)
    ensures !CanPull(forwardHit) ==> r == f
    ensures r == f.(hands := r.hands)
  {
    f.(hands := Manipulation.PullStart(f.hands, forwardHit))
  }

  function PullStop(f: Follower): (r: Follower)
    ensures !r.hands.isPulling && r.hands.pulledCube.None?
    ensures r == f.(hands := r.hands)
  {
    f.(hands := Manipulation.PullStop(f.hands))
  }

  datatype FollowerHandover = FollowerHandover(follower: Follower, bodies: Bodies)

  function Interact(f: Follower, hits: seq<Overlap>, bodies: Bodies): (r: FollowerHandover)
    ensures f.hands.isPulling || f.hands.isPushing ==> r == FollowerHandover(f, bodies)
    ensures r.follower == f.(hands := r.follower.hands)
    ensures Consistent(f.hands) ==> Consistent(r.follower.hands)
    ensures r.bodies.Keys == bodies.Keys
    ensures !f.hands.isPulling && !f.hands.isPushing && f.hands.heldItem.None? ==>
      if Closest(hits).None? then r == FollowerHandover(f, bodies)
      else
        var item := hits[Closest(hits).value].obj;
        && r.follower.hands == f.hands.(heldItem := Some(item), isHoldingObject := true)
        && (item in bodies ==> r.bodies[item])
        && (forall o :: o in bodies && o != item ==> r.bodies[o] == bodies[o])
    ensures !f.hands.isPulling && !f.hands.isPushing && f.hands.heldItem.Some? ==>
      var item := f.hands.heldItem.value;
      && r.follower.hands == f.hands.(heldItem := None, isHoldingObject := false)
      && (item in bodies ==> !r.bodies[item])
      && (forall o :: o in bodies && o != item ==> r.bodies[o] == bodies[o])
  {
    var o := Manipulation.Interact(f.hands, hits, bodies);
    FollowerHandover(f.(hands := o.hands), o.bodies)
  }

  datatype FollowerThrow = FollowerThrow(follower: Follower, bodies: Bodies, impulse: Option<Impulse>)

  function Throw(f: Follower, cfg: Config, bodies: Bodies, forward: Vec3): (r: FollowerThrow)
    ensures !f.hands.isHoldingObject || f.hands.heldItem.None? ==> r == FollowerThrow(f, bodies, None)
    ensures r.follower == f.(hands := r.follower.hands)
    ensures r.bodies.Keys == bodies.Keys
    ensures f.hands.isHoldingObject && f.hands.heldItem.Some? ==>
      var item := f.hands.heldItem.value;
      && r.follower.hands == f.hands.(isHoldingObject := false, heldItem := None)
      && (item in bodies ==> !r.bodies[item])
      && (forall o :: o in bodies && o != item ==> r.bodies[o] == bodies[o])
      && (r.impulse.Some? <==> item in bodies)
      && (r.impulse.Some? ==> Launches(r.impulse.value, item, forward, cfg.throwForce, cfg.throwUpwardForce))
  {
    var o := Manipulation.Throw(f.hands, bodies, forward, cfg.throwForce, cfg.throwUpwardForce);
    FollowerThrow(f.(hands := o.hands), o.bodies, o.impulse)
  }

  // ---------------------------------------------------------------- per-frame dispatch

  /** The engine's answers for one Update frame. */
  datatype Frame = Frame(
    grounded: bool,            // CharacterController.isGrounded
    dt: real,                  // Time.deltaTime
    moveInput: Vec2,           // the Move action's value
    sprint: bool,              // the Sprint action is held
    moveDirection: Vec3,       // the Move action's value on the ground plane, normalized
    pushHit: Option<RayHit>,   // the movement-direction ray
    pullProbe: CubeProbe,      // the pulled body after Move's pull step
    nav: NavStatus,            // the agent's path status
    player: Option<Sighting>)  // the player, when the reference is set

  /** Which branch of Update ran. */
  datatype Mode = Manual | ToLever | Follow

  datatype Tick = Tick(follower: Follower, mode: Mode, push: PushEffect, controllerSpeed: Option<real>)

  /**
   * Update: an active follower is under manual control; otherwise the lever trip, when one is
   * under way, takes priority over following the player.
   */
  function Update(f: Follower, cfg: Config, fr: Frame): (r: Tick)
    ensures r.mode == Manual <==> f.base.isActiveCharacter
    ensures r.mode == ToLever <==> !f.base.isActiveCharacter && f.goingToLever
    ensures r.mode == Follow <==> !f.base.isActiveCharacter && !f.goingToLever
    ensures r.mode != Manual ==>
      && r.follower.hands == f.hands && r.follower.vertical == f.vertical && r.push == NoPush
    ensures r.mode == Manual ==>
      && r.follower.isFollowing == f.isFollowing && r.follower.goingToLever == f.goingToLever
      && r.follower.agent == f.agent && r.controllerSpeed.None?
      && r.follower.vertical == Locomotion.HandleGravity(f.vertical, fr.grounded, cfg.gravity, fr.dt)
      && r.follower.vertical.isGrounded == fr.grounded
      && (r.follower.isMoving <==> fr.moveInput.SqrMagnitude() > MoveThreshold)
      && r.follower.isSprinting == fr.sprint
      && (r.follower.hands.isPushing <==> fr.moveInput.SqrMagnitude() >= MoveThreshold && CanPush(fr.pushHit, false))
      && (r.push != NoPush <==> r.follower.hands.isPushing)
      && (r.push != NoPush ==>
            && r.push == Force(fr.pushHit.value.body.value.id, fr.moveDirection.Scale(cfg.pushForce))
            && !fr.pushHit.value.body.value.isKinematic)
    ensures r.mode == ToLever ==> r.follower == HandleGoToLever(f, fr.nav)
    ensures r.mode == Follow ==> r.follower == HandleFollowAI(f, cfg, fr.player).follower
    ensures r.follower.base == f.base
    ensures Consistent(f.hands) ==> Consistent(r.follower.hands)
  {
    if f.base.isActiveCharacter then
      var f1 := f.(isSprinting := fr.sprint,
                   vertical := Locomotion.HandleGravity(f.vertical, fr.grounded, cfg.gravity, fr.dt));
      var pushed := HandlePushing(f1.hands, true, fr.moveInput.SqrMagnitude(), fr.moveDirection, fr.pushHit, false,
                                  cfg.pushForce, cfg.pullSpeed * fr.dt);
      var f2 := Move(f1.(hands := pushed.0), cfg, fr.moveInput, fr.pullProbe).follower;
      Tick(f2, Manual, pushed.1, None)
    else if f.goingToLever then Tick(HandleGoToLever(f, fr.nav), ToLever, NoPush, None)
    else
      var step := HandleFollowAI(f, cfg, fr.player);
      Tick(step.follower, Follow, NoPush, step.controllerSpeed)
  }

  /**
   * A whistle sends an idle, AI-controlled follower after a distant player: an agent is switched
   * on and aimed at the player, its stopped switch left as it was; without one the follower moves itself at between
   * AgentlessSpeedFactor times the walk and the run speed.
   */
  lemma WhistleStartsChase(f: Follower, cfg: Config, fr: Frame)
    requires !f.base.isActiveCharacter && !f.goingToLever
    requires fr.player.Some? && fr.player.value.distance > cfg.stopDistance
    requires cfg.walkSpeed <= cfg.runSpeed
    ensures var t := Update(Whistle(f), cfg, fr);
      && t.mode == Follow && t.follower.isFollowing
      && (f.agent.Some? ==>
            && t.controllerSpeed.None?
            && t.follower.agent.value.enabled && t.follower.agent.value.destination == Some(fr.player.value.position)
            && t.follower.agent.value.isStopped == f.agent.value.isStopped)
      && (f.agent.None? ==>
            && t.controllerSpeed.Some?
            && AgentlessSpeedFactor * cfg.walkSpeed <= t.controllerSpeed.value <= AgentlessSpeedFactor * cfg.runSpeed)
  {
  }

  /**
   * Without an agent the follower moves more slowly than its chase speed: with the default
   * tuning, a player 2 units away is chased at 0.7 * (1.5 + 1.5 * 0.5 / 4.5), below the walk speed.
   */
  lemma AgentlessChaseIsSlowerThanWalking(f: Follower, position: Vec3)
    requires f.isFollowing && f.agent.None?
    ensures var r := HandleFollowAI(f, Defaults, Some(Sighting(position, 2.0)));
      r.controllerSpeed.Some? && r.controllerSpeed.value < Defaults.walkSpeed
  {
    assert InverseLerp(1.5, 6.0, 2.0) == 0.5 / 4.5;
  }

  /**
   * A lever trip ends with the agent stopped, and neither a whistle nor the follow AI restarts it:
   * after arriving at the lever, a whistled follower's agent is aimed at a distant player but
   * stays stopped.
   */
  lemma LeverTripLeavesAgentStopped(f: Follower, cfg: Config, target: Vec3, nav: NavStatus, fr: Frame)
    requires !f.base.isActiveCharacter && f.agent.Some?
    requires Arrived(nav)
    requires fr.player.Some? && fr.player.value.distance > cfg.stopDistance
    ensures var atLever := HandleGoToLever(GoToLever(f, target), nav);
      && !atLever.goingToLever && !atLever.isFollowing
      && atLever.agent.value.isStopped && atLever.agent.value.destination == Some(target)
      && var t := Update(Whistle(atLever), cfg, fr);
        && t.mode == Follow && t.follower.isFollowing
        && t.follower.agent.value.destination == Some(fr.player.value.position)
        && t.follower.agent.value.isStopped
  {
  }
}

=== FILE: lever.dfy ===
/**
 * Lever: toggles a platform between raised and lowered. Each activation runs a timed sequence
 * of animator cues during which further activations are ignored.
 */
module Levers {
  import opened Wrappers
  import opened Scene

  datatype PlatformState = Raised | Lowered

  /**
   * Where the running sequence waits: after "LeverUp" for the lever delay, after "LowerPlatform"
   * for the lowering time, after "RaisePlatform" for the raising time.
   */
  datatype Phase = Idle | LeverDelay | Lowering | Raising

  datatype Lever = Lever(interactionRange: real, leverDelay: real,
                         isSequenceRunning: bool, platformState: PlatformState, phase: Phase)

  const DefaultRange: real := 2.0
  const DefaultLeverDelay: real := 0.5
  const LowerTime: real := 2.0
  const RaiseTime: real := 3.0

  function Initial(range: real, leverDelay: real): Lever { Lever(range, leverDelay, false, Raised, Idle) }

  /** The length of the wait the sequence is in, if any. */
  function PendingWait(l: Lever): (r: Option<real>)
    ensures r.None? <==> l.phase == Idle
  {
    match l.phase
    case Idle => None
    case LeverDelay => Some(l.leverDelay)
    case Lowering => Some(LowerTime)
    case Raising => Some(RaiseTime)
  }

  datatype Outcome = Outcome(lever: Lever, cues: seq<Cue>)

  /**
   * TryActivateLever. activeDistance is the distance from the active character, None when no
   * character is active. A running sequence, no active character or a distance beyond the range
   * ignore the request. A raised platform starts lowering ("LeverUp", then the lever delay); a
   * lowered one starts raising ("Idle" and "RaisePlatform" together, then the raising time).
   */
  function TryActivateLever(l: Lever, activeDistance: Option<real>): (r: Outcome)
    ensures var accepted := !l.isSequenceRunning && activeDistance.Some? && activeDistance.value <= l.interactionRange;
      && (!accepted ==> r == Outcome(l, []))
      && (accepted ==> r.lever.isSequenceRunning && r.lever.platformState == l.platformState)
      && (accepted && l.platformState == Raised ==> r.lever.phase == LeverDelay && r.cues == ["LeverUp"])
      && (accepted && l.platformState == Lowered ==> r.lever.phase == Raising && r.cues == ["Idle", "RaisePlatform"])
  {
    if l.isSequenceRunning then Outcome(l, [])
    else if activeDistance.None? then Outcome(l, [])
    else if activeDistance.value > l.interactionRange then Outcome(l, [])
    else if l.platformState == Raised then Outcome(l.(isSequenceRunning := true, phase := LeverDelay), ["LeverUp"])
    else Outcome(l.(isSequenceRunning := true, phase := Raising), ["Idle", "RaisePlatform"])
  }

  /** The pending wait ran out: the sequence moves on, and at its end the platform has flipped. */
  function WaitElapsed(l: Lever): (r: Outcome)
    ensures l.phase == Idle ==> r == Outcome(l, [])
    ensures l.phase == LeverDelay ==> r == Outcome(l.(phase := Lowering), ["LowerPlatform"])
    ensures l.phase == Lowering ==> r == Outcome(l.(phase := Idle, isSequenceRunning := false, platformState := Lowered), [])
    ensures l.phase == Raising ==> r == Outcome(l.(phase := Idle, isSequenceRunning := false, platformState := Raised), [])
  {
    match l.phase
    case Idle => Outcome(l, [])
    case LeverDelay => Outcome(l.(phase := Lowering), ["LowerPlatform"])
    case Lowering => Outcome(l.(phase := Idle, isSequenceRunning := false, platformState := Lowered), [])
    case Raising => Outcome(l.(phase := Idle, isSequenceRunning := false, platformState := Raised), [])
  }

  /**
   * The running flag matches the coroutine, and a sequence in progress is always the one that
   * leaves the platform's current state.
   */
  predicate Coherent(l: Lever)
  {
    && (l.isSequenceRunning <==> l.phase != Idle)
    && (l.phase == LeverDelay || l.phase == Lowering ==> l.platformState == Raised)
    && (l.phase == Raising ==> l.platformState == Lowered)
  }

  lemma EventsKeepCoherent(l: Lever, activeDistance: Option<real>)
    requires Coherent(l)
    ensures Coherent(TryActivateLever(l, activeDistance).lever)
    ensures Coherent(WaitElapsed(l).lever)
  {
  }

  function Rank(p: Phase): nat
  {
    match p
    case Idle => 0
    case Raising => 1
    case Lowering => 1
    case LeverDelay => 2
  }

  /** Let every pending wait run out, collecting the cues. */
  function Finish(l: Lever): (r: Outcome)
    ensures r.lever.phase == Idle
    decreases Rank(l.phase)
  {
    if l.phase == Idle then Outcome(l, [])
    else
      var first := WaitElapsed(l);
      var rest := Finish(first.lever);
      Outcome(rest.lever, first.cues + rest.cues)
  }

  /** A completed activation flips the platform and frees the lever for the next one. */
  lemma {:induction false} ActivationFlipsPlatform(l: Lever, d: real)
    requires Coherent(l) && !l.isSequenceRunning && d <= l.interactionRange
    ensures var r := Finish(TryActivateLever(l, Some(d)).lever).lever;
      && !r.isSequenceRunning
      && r.platformState != l.platformState
      && r == l.(platformState := r.platformState)
  {
    var started := TryActivateLever(l, Some(d)).lever;
    if l.platformState == Raised {
      var lowering := WaitElapsed(started).lever;
      assert Finish(lowering).lever == WaitElapsed(lowering).lever;
    } else {
      assert Finish(started).lever == WaitElapsed(started).lever;
    }
  }

  /**
   * Two completed activations from a raised platform bring the lever back to where it started,
   * with the four sequence cues in order.
   */
  lemma {:induction false} TwoActivationsRestore(l: Lever, d1: real, d2: real)
    requires Coherent(l) && !l.isSequenceRunning && l.platformState == Raised
    requires d1 <= l.interactionRange && d2 <= l.interactionRange
    ensures var first := TryActivateLever(l, Some(d1));
      var down := Finish(first.lever);
      var second := TryActivateLever(down.lever, Some(d2));
      var up := Finish(second.lever);
      && up.lever == l
      && first.cues + down.cues + second.cues + up.cues == ["LeverUp", "LowerPlatform", "Idle", "RaisePlatform"]
  {
    var first := TryActivateLever(l, Some(d1));
    var down := Finish(first.lever);
    assert first.lever.phase == LeverDelay && first.cues == ["LeverUp"];
    var lowering := WaitElapsed(first.lever).lever;
    assert lowering.phase == Lowering;
    var lowered := WaitElapsed(lowering).lever;
    assert lowered.phase == Idle;
    assert Finish(lowering) == Outcome(lowered, [] + []);
    assert down == Outcome(lowered, ["LowerPlatform"] + []);
    var second := TryActivateLever(down.lever, Some(d2));
    assert second.lever.phase == Raising && second.cues == ["Idle", "RaisePlatform"];
    var raised := WaitElapsed(second.lever).lever;
    assert raised.phase == Idle;
    assert Finish(raised) == Outcome(raised, []);
    var up := Finish(second.lever);
    assert up == Outcome(raised, [] + []);
  }

  /** While a sequence runs, activation requests change nothing. */
  lemma RunningIgnoresActivation(l: Lever, activeDistance: Option<real>)
    requires l.isSequenceRunning
    ensures TryActivateLever(l, activeDistance) == Outcome(l, [])
  {
  }
}

=== FILE: locomotion.dfy ===
/**
 * Vertical motion shared by Player and Follower: the grounded reset, gravity integration and the
 * jump take-off, which both scripts implement identically.
 */
module Locomotion {

  datatype Vertical = Vertical(velocityY: real, isGrounded: bool)

  const Rest := Vertical(0.0, false)

  /** The small downward velocity a grounded character keeps so it stays on the ground. */
  const GroundedBias: real := -2.0

  /** One HandleGravity call: refresh the grounded flag, reset a grounded fall, then integrate. */
  function HandleGravity(v: Vertical, grounded: bool, gravity: real, dt: real): (r: Vertical)
    ensures r.isGrounded == grounded
    ensures grounded && v.velocityY < 0.0 ==> r.velocityY == GroundedBias + gravity * dt
    ensures !(grounded && v.velocityY < 0.0) ==> r.velocityY == v.velocityY + gravity * dt
  {
    var vy := if grounded && v.velocityY < 0.0 then GroundedBias else v.velocityY;
    Vertical(vy + gravity * dt, grounded)
  }

  /**
   * Jump: only an active, grounded character takes off. root is the engine's Mathf.Sqrt of
   * jumpHeight * -2 * gravity, so the take-off speed reaches height jumpHeight under gravity.
   */
  function Jump(v: Vertical, isActive: bool, jumpHeight: real, gravity: real, root: real): (r: Vertical)
    requires root >= 0.0 && root * root == jumpHeight * -2.0 * gravity
    ensures !isActive || !v.isGrounded ==> r == v
    ensures isActive && v.isGrounded ==>
      && r.isGrounded
      && r.velocityY >= 0.0
      && r.velocityY * r.velocityY == -2.0 * jumpHeight * gravity
  {
    if !isActive || !v.isGrounded then v else v.(velocityY := root)
  }

  /** n consecutive HandleGravity frames with the same ground contact and time step. */
  function Frames(v: Vertical, grounded: bool, gravity: real, dt: real, n: nat): Vertical
    decreases n
  {
    if n == 0 then v else Frames(HandleGravity(v, grounded, gravity, dt), grounded, gravity, dt, n - 1)
  }

  /** Airborne, the vertical velocity changes by gravity * dt every frame. */
  lemma {:induction false} AirborneFallIsLinear(v: Vertical, gravity: real, dt: real, n: nat)
    ensures Frames(v, false, gravity, dt, n).velocityY == v.velocityY + (n as real) * (gravity * dt)
    decreases n
  {
    if n > 0 {
      var g := gravity * dt;
      var v1 := HandleGravity(v, false, gravity, dt);
      AirborneFallIsLinear(v1, gravity, dt, n - 1);
      var k := (n - 1) as real;
      assert k * g + g == (k + 1.0) * g;
    }
  }

  /**
   * On the ground with gravity pulling down, a falling character settles at the grounded bias
   * plus one frame of gravity and stays there, however many frames pass.
   */
  lemma {:induction false} GroundedVelocitySettles(v: Vertical, gravity: real, dt: real, n: nat)
    requires v.velocityY < 0.0 && gravity * dt <= 0.0 && n >= 1
    ensures Frames(v, true, gravity, dt, n) == Vertical(GroundedBias + gravity * dt, true)
    decreases n
  {
    var v1 := HandleGravity(v, true, gravity, dt);
    if n > 1 {
      GroundedVelocitySettles(v1, gravity, dt, n - 1);
    }
  }
}

=== FILE: manipulation.dfy ===
/**
 * The pull / push / pick-up / throw sub-machine that Player and Follower implement with the same
 * code. The one difference, whether a kinematic body can be pushed, is a parameter.
 * Physics queries arrive as values: a ray hit, an overlap list, a probe of the pulled body.
 */
module Manipulation {
  import opened Wrappers
  import opened Scene

  datatype Hands = Hands(
    isPulling: bool, pulledCube: Option<ObjId>,
    isPushing: bool,
    isHoldingObject: bool, heldItem: Option<ObjId>)

  const EmptyHands := Hands(false, None, false, false, None)

  /** The holding flag mirrors the held reference, and a character that pulls has a body to pull. */
  predicate Consistent(h: Hands) {
    && (h.isHoldingObject <==> h.heldItem.Some?)
    && (h.isPulling ==> h.pulledCube.Some?)
  }

  /** Kinematic flags of the scene's rigidbodies; an object absent from the map has no Rigidbody. */
  type Bodies = map<ObjId, bool>

  function SetKinematic(bodies: Bodies, obj: ObjId, kinematic: bool): (r: Bodies)
    ensures r.Keys == bodies.Keys
    ensures obj in r ==> r[obj] == kinematic
    ensures forall o :: o in bodies && o != obj ==> r[o] == bodies[o]
  {
    if obj in bodies then bodies[obj := kinematic] else bodies
  }

  // ---------------------------------------------------------------- pull

  /** The rigidbody a ray hit reports, if the hit collider has one. */
  datatype BodyInfo = BodyInfo(id: ObjId, isKinematic: bool)

  /** The nearest hit of a physics ray: the collider's tag and its rigidbody. */
  datatype RayHit = RayHit(tag: Tag, body: Option<BodyInfo>)

  /** A forward ray hit that PullStart accepts: a dynamic body tagged Interactable. */
  predicate CanPull(hit: Option<RayHit>) {
    hit.Some? && hit.value.tag == InteractableTag && hit.value.body.Some? && !hit.value.body.value.isKinematic
  }

  function PullStart(h: Hands, hit: Option<RayHit>): (r: Hands)
    ensures CanPull(hit) ==> r.isPulling && r.pulledCube == Some(hit.value.body.value.id)
    ensures !CanPull(hit) ==> r == h
    ensures r.isPushing == h.isPushing && r.isHoldingObject == h.isHoldingObject && r.heldItem == h.heldItem
    ensures Consistent(h) ==> Consistent(r)
  {
    if CanPull(hit) then h.(isPulling := true, pulledCube := Some(hit.value.body.value.id)) else h
  }

  function PullStop(h: Hands): (r: Hands)
    ensures !r.isPulling && r.pulledCube.None?
    ensures r.isPushing == h.isPushing && r.isHoldingObject == h.isHoldingObject && r.heldItem == h.heldItem
    ensures Consistent(h) ==> Consistent(r)
  {
    h.(isPulling := false, pulledCube := None)
  }

  /**
   * What the engine reports about the pulled body after this frame's pull motion: destroyed
   * (Unity then compares the reference equal to null), or still there at some distance.
   */
  datatype CubeProbe = Gone | At(distance: real)

  /** Extra slack beyond the pull distance before the pull breaks. */
  const PullSlack: real := 2.0

  /**
   * HandlePulling's state effect: a missing body ends pulling; otherwise pulling goes on unless
   * the body has drifted farther than pullDistance + 2, which stops the pull altogether.
   */
  function HandlePulling(h: Hands, probe: CubeProbe, pullDistance: real): (r: Hands)
    ensures r.isPulling <==> h.pulledCube.Some? && probe.At? && probe.distance <= pullDistance + PullSlack
    ensures r.isPulling ==> r.pulledCube == h.pulledCube
    ensures probe.At? && probe.distance > pullDistance + PullSlack && h.pulledCube.Some? ==> r.pulledCube.None?
    ensures r.isPushing == h.isPushing && r.isHoldingObject == h.isHoldingObject && r.heldItem == h.heldItem
    ensures Consistent(h) ==> Consistent(r)
  {
    if h.pulledCube.None? || probe.Gone? then h.(isPulling := false)
    else
      var pulling := h.(isPulling := true);
      if probe.distance > pullDistance + PullSlack then PullStop(pulling) else pulling
  }

  // ---------------------------------------------------------------- push

  /** Squared length below which a movement input counts as no movement. */
  const MoveThreshold: real := 0.01

  /**
   * The push the character applies this frame, if any: a kinematic body is moved by offset
   * directly, a dynamic one receives force (ForceMode.Force).
   */
  datatype PushEffect = NoPush | Translate(body: ObjId, offset: Vec3) | Force(body: ObjId, force: Vec3)

  /** A movement-direction ray hit that HandlePushing accepts. */
  predicate CanPush(hit: Option<RayHit>, pushesKinematic: bool) {
    && hit.Some? && hit.value.body.Some? && hit.value.tag == InteractableTag
    && (pushesKinematic || !hit.value.body.value.isKinematic)
  }

  /**
   * HandlePushing: an inactive character is left alone; otherwise pushing holds exactly when
   * there is movement input and the ray meets an acceptable Interactable body. A kinematic
   * body (only when pushesKinematic) is moved kinematicStep along the movement direction, a
   * dynamic one receives pushForce along it. direction is the engine's normalized movement input.
   */
  function HandlePushing(h: Hands, isActive: bool, moveSqrMagnitude: real, direction: Vec3, hit: Option<RayHit>,
                         pushesKinematic: bool, pushForce: real, kinematicStep: real)
    : (r: (Hands, PushEffect))
    ensures !isActive ==> r == (h, NoPush)
    ensures isActive ==> (r.0.isPushing <==> moveSqrMagnitude >= MoveThreshold && CanPush(hit, pushesKinematic))
    ensures r.0 == h.(isPushing := r.0.isPushing)
    ensures r.1 != NoPush <==> isActive && r.0.isPushing
    ensures r.1 != NoPush ==> r.1.body == hit.value.body.value.id
    ensures r.1.Translate? <==> r.1 != NoPush && hit.value.body.value.isKinematic
    ensures r.1.Translate? ==> pushesKinematic
    ensures r.1.Translate? ==>
      r.1.offset == Vec3(direction.x * kinematicStep, direction.y * kinematicStep, direction.z * kinematicStep)
    ensures r.1.Force? ==>
      r.1.force == Vec3(direction.x * pushForce, direction.y * pushForce, direction.z * pushForce)
  {
    if !isActive then (h, NoPush)
    else if moveSqrMagnitude < MoveThreshold then (h.(isPushing := false), NoPush)
    else if CanPush(hit, pushesKinematic) then
      var b := hit.value.body.value;
      (h.(isPushing := true), if b.isKinematic then Translate(b.id, direction.Scale(kinematicStep))
                                       else Force(b.id, direction.Scale(pushForce)))
    else (h.(isPushing := false), NoPush)
  }

  // ---------------------------------------------------------------- pick up / throw

  /** One collider of the pick-up overlap sphere: its object, tag and distance from the hold point. */
  datatype Overlap = Overlap(obj: ObjId, tag: Tag, distance: real)

  predicate IsCandidate(o: Overlap) { o.tag == PickupableTag }

  /**
   * The hit kept by the source's scan of hits[..n]: a candidate replaces the best so far only
   * when strictly closer, so the first of equally close candidates wins.
   */
  function ClosestIn(hits: seq<Overlap>, n: nat): (k: Option<nat>)
    requires n <= |hits|
    ensures k.None? <==> forall i :: 0 <= i < n ==> !IsCandidate(hits[i])
    ensures k.Some? ==> k.value < n && IsCandidate(hits[k.value])
    ensures k.Some? ==> forall i :: 0 <= i < n && IsCandidate(hits[i]) ==> hits[k.value].distance <= hits[i].distance
    ensures k.Some? ==> forall i :: 0 <= i < k.value && IsCandidate(hits[i]) ==> hits[k.value].distance < hits[i].distance
    decreases n
  {
    if n == 0 then None
    else
      var best := ClosestIn(hits, n - 1);
      if IsCandidate(hits[n - 1]) && (best.None? || hits[n - 1].distance < hits[best.value].distance)
      then Some(n - 1)
      else best
  }

  function Closest(hits: seq<Overlap>): Option<nat> { ClosestIn(hits, |hits|) }

  /** The nearest-first-wins choice is the only index meeting its description. */
  lemma ClosestIsUnique(hits: seq<Overlap>, k: nat)
    requires k < |hits| && IsCandidate(hits[k])
    requires forall i :: 0 <= i < |hits| && IsCandidate(hits[i]) ==> hits[k].distance <= hits[i].distance
    requires forall i :: 0 <= i < k && IsCandidate(hits[i]) ==> hits[k].distance < hits[i].distance
    ensures Closest(hits) == Some(k)
  {
  }

  datatype Handover = Handover(hands: Hands, bodies: Bodies)

  /**
   * Interact: ignored while pulling or pushing. Empty-handed, take the nearest Pickupable hit and
   * make its body kinematic; holding, let go and make the body dynamic again.
   */
  function Interact(h: Hands, hits: seq<Overlap>, bodies: Bodies): (r: Handover)
    ensures h.isPulling || h.isPushing ==> r == Handover(h, bodies)
    ensures r.bodies.Keys == bodies.Keys
    ensures r.hands == h.(isHoldingObject := r.hands.isHoldingObject, heldItem := r.hands.heldItem)
    ensures Consistent(h) ==> Consistent(r.hands)
    ensures !h.isPulling && !h.isPushing && h.heldItem.None? ==>
      if Closest(hits).None? then r == Handover(h, bodies)
      else
        var item := hits[Closest(hits).value].obj;
        && r.hands.heldItem == Some(item) && r.hands.isHoldingObject
        && (item in bodies ==> r.bodies[item])
        && (forall o :: o in bodies && o != item ==> r.bodies[o] == bodies[o])
    ensures !h.isPulling && !h.isPushing && h.heldItem.Some? ==>
      var item := h.heldItem.value;
      && r.hands.heldItem.None? && !r.hands.isHoldingObject
      && (item in bodies ==> !r.bodies[item])
      && (forall o :: o in bodies && o != item ==> r.bodies[o] == bodies[o])
  {
    if h.isPulling || h.isPushing then Handover(h, bodies)
    else if h.heldItem.None? then
      match Closest(hits)
      case None => Handover(h, bodies)
      case Some(k) =>
        var item := hits[k].obj;
        Handover(h.(heldItem := Some(item), isHoldingObject := true), SetKinematic(bodies, item, true))
    else
      Handover(h.(heldItem := None, isHoldingObject := false), SetKinematic(bodies, h.heldItem.value, false))
  }

  /** An impulse applied once to a body. */
  datatype Impulse = Impulse(body: ObjId, force: Vec3)

  datatype ThrowOutcome = ThrowOutcome(hands: Hands, bodies: Bodies, impulse: Option<Impulse>)

  /**
   * The throw impulse on item: throwForce along the character's forward direction plus
   * throwUpwardForce straight up, component by component.
   */
  predicate Launches(i: Impulse, item: ObjId, forward: Vec3, throwForce: real, throwUpwardForce: real) {
    && i.body == item
    && i.force.x == forward.x * throwForce
    && i.force.y == forward.y * throwForce + throwUpwardForce
    && i.force.z == forward.z * throwForce
  }

  /**
   * Throw: only while holding. The item is let go with a dynamic body and, when it has a body,
   * an impulse of forward * throwForce plus up * throwUpwardForce.
   */
  function Throw(h: Hands, bodies: Bodies, forward: Vec3, throwForce: real, throwUpwardForce: real): (r: ThrowOutcome)
    ensures !h.isHoldingObject || h.heldItem.None? ==> r == ThrowOutcome(h, bodies, None)
    ensures r.bodies.Keys == bodies.Keys
    ensures h.isHoldingObject && h.heldItem.Some? ==>
      var item := h.heldItem.value;
      && r.hands == h.(isHoldingObject := false, heldItem := None)
      && (item in bodies ==> !r.bodies[item])
      && (forall o :: o in bodies && o != item ==> r.bodies[o] == bodies[o])
      && (r.impulse.Some? <==> item in bodies)
      && (r.impulse.Some? ==> Launches(r.impulse.value, item, forward, throwForce, throwUpwardForce))
    ensures Consistent(h) ==> Consistent(r.hands)
  {
    if !h.isHoldingObject || h.heldItem.None? then ThrowOutcome(h, bodies, None)
    else
      var item := h.heldItem.value;
      var impulse := forward.Scale(throwForce).Plus(Up.Scale(throwUpwardForce));
      ThrowOutcome(
        h.(isHoldingObject := false, heldItem := None),
        SetKinematic(bodies, item, false),
        if item in bodies then Some(Impulse(item, impulse)) else None)
  }

  /**
   * Nothing keeps two characters from holding the same item: two empty-handed characters whose
   * overlap scans both see one pickupable item both take it.
   */
  lemma SameItemCanBeHeldTwice()
    ensures
      var hits := [Overlap(7, PickupableTag, 1.0)];
      var first := Interact(EmptyHands, hits, map[7 := false]);
      var second := Interact(EmptyHands, hits, first.bodies);
      first.hands.heldItem == Some(7) && second.hands.heldItem == Some(7)
  {
    var hits := [Overlap(7, PickupableTag, 1.0)];
    assert Closest(hits) == Some(0);
  }
}

=== FILE: pickupable.dfy ===
/**
 * Pickupable: an item's custom gravity. Built-in gravity is switched off on Awake and a scaled
 * gravity is applied every physics step while the body is dynamic, so a held (kinematic) item
 * floats in the hand.
 */
module Pickupables {
  import opened Wrappers
  import opened Scene
  import Manipulation

  /** gravityScale is the serialized field; useGravity is the Rigidbody's built-in gravity switch. */
  datatype Pickupable = Pickupable(gravityScale: real, useGravity: bool)

  const DefaultGravityScale: real := 1.0

  /** An item as authored: default scale, and a Rigidbody with Unity's default built-in gravity on. */
  const Authored := Pickupable(DefaultGravityScale, true)

  function Awake(p: Pickupable): (r: Pickupable)
    ensures !r.useGravity
    ensures GetGravityScale(r) == GetGravityScale(p)
  {
    p.(useGravity := false)
  }

  function SetGravityScale(p: Pickupable, scale: real): (r: Pickupable)
    ensures GetGravityScale(r) == scale
    ensures r.useGravity == p.useGravity
  {
    p.(gravityScale := scale)
  }

  function GetGravityScale(p: Pickupable): real { p.gravityScale }

  /**
   * FixedUpdate's acceleration: none for a kinematic body, otherwise the world gravity scaled by
   * the item's gravity scale.
   */
  function FixedUpdate(p: Pickupable, isKinematic: bool, worldGravity: Vec3): (r: Option<Vec3>)
    ensures r.None? <==> isKinematic
    ensures r.Some? ==>
      && r.value.x == GetGravityScale(p) * worldGravity.x
      && r.value.y == GetGravityScale(p) * worldGravity.y
      && r.value.z == GetGravityScale(p) * worldGravity.z
    ensures r.Some? && GetGravityScale(p) == 1.0 ==> r.value == worldGravity
    ensures r.Some? && GetGravityScale(p) == 0.0 ==> r.value == Zero
  {
    if isKinematic then None else Some(worldGravity.Scale(p.gravityScale))
  }

  /** A freshly authored item after Awake falls with exactly the world gravity while dynamic. */
  lemma AwakeItemFallsWithWorldGravity(worldGravity: Vec3)
    ensures !Awake(Authored).useGravity
    ensures FixedUpdate(Awake(Authored), false, worldGravity) == Some(worldGravity)
  {
  }

  /** An item just picked up is kinematic and so receives no custom gravity while held. */
  lemma PickedUpItemFloats(h: Manipulation.Hands, hits: seq<Manipulation.Overlap>, bodies: Manipulation.Bodies,
                           p: Pickupable, worldGravity: Vec3)
    requires !h.isPulling && !h.isPushing && h.heldItem.None?
    requires Manipulation.Closest(hits).Some? && hits[Manipulation.Closest(hits).value].obj in bodies
    ensures var r := Manipulation.Interact(h, hits, bodies);
      FixedUpdate(p, r.bodies[hits[Manipulation.Closest(hits).value].obj], worldGravity).None?
  {
  }

  /** A thrown item is dynamic again and falls under its scaled gravity. */
  lemma ThrownItemFalls(h: Manipulation.Hands, bodies: Manipulation.Bodies, forward: Vec3,
                        throwForce: real, throwUpwardForce: real, p: Pickupable, worldGravity: Vec3)
    requires h.isHoldingObject && h.heldItem.Some? && h.heldItem.value in bodies
    ensures var r := Manipulation.Throw(h, bodies, forward, throwForce, throwUpwardForce);
      FixedUpdate(p, r.bodies[h.heldItem.value], worldGravity) == Some(worldGravity.Scale(p.gravityScale))
  {
  }
}

=== FILE: platform.dfy ===
/**
 * PlatformParent: a moving platform carries the characters standing on it by adding its own
 * displacement since the last frame to their positions.
 */
module Platforms {
  import opened Wrappers
  import opened Scene

  /** standing is the list of characters on the platform top, in the order they stepped on. */
  datatype Platform = Platform(standing: seq<ObjId>, lastPos: Vec3)

  function Start(platformPos: Vec3): Platform { Platform([], platformPos) }

  predicate Distinct(s: seq<ObjId>) { forall i, j :: 0 <= i < j < |s| ==> s[i] != s[j] }

  /**
   * OnTriggerEnter: who is the entering collider's character, None if it has none. A character
   * not yet on the list is appended; anything else is ignored.
   */
  function OnTriggerEnter(p: Platform, who: Option<ObjId>): (r: Platform)
    ensures r.lastPos == p.lastPos
    ensures who.None? ==> r == p
    ensures who.Some? ==> who.value in r.standing && (who.value in p.standing ==> r == p)
    ensures who.Some? && who.value !in p.standing ==> r.standing == p.standing + [who.value]
    ensures Distinct(p.standing) ==> Distinct(r.standing)
  {
    if who.Some? && who.value !in p.standing then p.(standing := p.standing + [who.value]) else p
  }

  /** List.IndexOf: the position of the first occurrence of x, or -1 when there is none. */
  function IndexOf(s: seq<ObjId>, x: ObjId): (i: int)
    ensures i == -1 <==> x !in s
    ensures i != -1 ==> 0 <= i < |s| && s[i] == x && x !in s[..i]
    decreases |s|
  {
    if |s| == 0 then -1
    else if s[0] == x then 0
    else
      var j := IndexOf(s[1..], x);
      assert j != -1 ==> s[..j + 1] == [s[0]] + s[1..][..j];
      if j == -1 then -1 else j + 1
  }

  /**
   * List.Remove: find the first occurrence of x and remove it there, keeping the order of the
   * rest; without one the list is unchanged.
   */
  function RemoveFirst(s: seq<ObjId>, x: ObjId): (r: seq<ObjId>)
    ensures x !in s ==> r == s
    ensures x in s ==> |r| == |s| - 1
    ensures x in s ==> exists i :: 0 <= i < |s| && s[i] == x && x !in s[..i] && r == s[..i] + s[i + 1..]
    ensures multiset(r) == multiset(s) - multiset{x}
    ensures forall y :: y in r ==> y in s
    ensures forall y :: y in s && y != x ==> y in r
    ensures Distinct(s) ==> Distinct(r) && x !in r
  {
    var i := IndexOf(s, x);
    if i == -1 then s
    else
      RemoveAtShrinks(s, i);
      s[..i] + s[i + 1..]
  }

  /** Removing the element at i takes exactly one copy of it and keeps a list without repeats so. */
  lemma RemoveAtShrinks(s: seq<ObjId>, i: nat)
    requires i < |s|
    ensures multiset(s[..i] + s[i + 1..]) == multiset(s) - multiset{s[i]}
    ensures forall y :: y in s[..i] + s[i + 1..] ==> y in s
    ensures forall y :: y in s && y != s[i] ==> y in s[..i] + s[i + 1..]
    ensures Distinct(s) ==> Distinct(s[..i] + s[i + 1..]) && s[i] !in s[..i] + s[i + 1..]
  {
    var r := s[..i] + s[i + 1..];
    assert s == s[..i] + [s[i]] + s[i + 1..];
    forall y | y in s && y != s[i]
      ensures y in r
    {
      var k :| 0 <= k < |s| && s[k] == y;
      if k < i { assert r[k] == y; } else { assert r[k - 1] == y; }
    }
    if Distinct(s) {
      forall a, b | 0 <= a < b < |r|
        ensures r[a] != r[b]
      {
        var a' := if a < i then a else a + 1;
        var b' := if b < i then b else b + 1;
        assert r[a] == s[a'] && r[b] == s[b'];
      }
      forall k | 0 <= k < |r|
        ensures r[k] != s[i]
      {
        var k' := if k < i then k else k + 1;
        assert r[k] == s[k'];
      }
    }
  }

  /** OnTriggerExit: a character leaving the platform is taken off the list. */
  function OnTriggerExit(p: Platform, who: Option<ObjId>): (r: Platform)
    ensures r.lastPos == p.lastPos
    ensures who.None? ==> r == p
    ensures who.Some? && who.value !in p.standing ==> r == p
    ensures forall c :: c in r.standing ==> c in p.standing
    ensures who.Some? ==> forall c :: c in p.standing && c != who.value ==> c in r.standing
    ensures who.Some? && Distinct(p.standing) ==> who.value !in r.standing
    ensures Distinct(p.standing) ==> Distinct(r.standing)
  {
    if who.Some? then p.(standing := RemoveFirst(p.standing, who.value)) else p
  }

  /** Add delta to the position of every listed character that still exists. */
  function Carry(positions: map<ObjId, Vec3>, standing: seq<ObjId>, delta: Vec3): map<ObjId, Vec3>
    decreases |standing|
  {
    if |standing| == 0 then positions
    else
      var c := standing[0];
      var moved := if c in positions then positions[c := positions[c].Plus(delta)] else positions;
      Carry(moved, standing[1..], delta)
  }

  /** With no repeats on the list, every standing character moves by delta exactly once and nobody else moves. */
  lemma {:induction false} CarryMovesEachOnce(positions: map<ObjId, Vec3>, standing: seq<ObjId>, delta: Vec3)
    ensures Carry(positions, standing, delta).Keys == positions.Keys
    ensures Distinct(standing) ==> forall c :: c in positions ==>
      Carry(positions, standing, delta)[c] == (if c in standing then positions[c].Plus(delta) else positions[c])
    decreases |standing|
  {
    if |standing| > 0 {
      var c := standing[0];
      var moved := if c in positions then positions[c := positions[c].Plus(delta)] else positions;
      assert Distinct(standing) ==> Distinct(standing[1..]) && c !in standing[1..];
      CarryMovesEachOnce(moved, standing[1..], delta);
      assert forall x :: x in standing <==> x == c || x in standing[1..];
    }
  }

  datatype Carried = Carried(platform: Platform, positions: map<ObjId, Vec3>)

  /**
   * LateUpdate: the platform moved by its position minus the one remembered last frame; every
   * standing character moves by that much, and the current position is remembered.
   */
  function LateUpdate(p: Platform, platformPos: Vec3, positions: map<ObjId, Vec3>): (r: Carried)
    ensures r.platform == p.(lastPos := platformPos)
    ensures r.positions.Keys == positions.Keys
    ensures Distinct(p.standing) ==> forall c :: c in positions ==>
      r.positions[c] == (if c in p.standing then positions[c].Plus(platformPos.Minus(p.lastPos)) else positions[c])
  {
    CarryMovesEachOnce(positions, p.standing, platformPos.Minus(p.lastPos));
    Carried(p.(lastPos := platformPos), Carry(positions, p.standing, platformPos.Minus(p.lastPos)))
  }

  /** A platform that has not moved since the last frame moves nobody. */
  lemma StillPlatformMovesNobody(p: Platform, positions: map<ObjId, Vec3>)
    requires Distinct(p.standing)
    ensures LateUpdate(p, p.lastPos, positions).positions == positions
  {
    var r := LateUpdate(p, p.lastPos, positions).positions;
    assert forall c :: c in positions ==> r[c] == positions[c];
  }

  /** Two LateUpdates without the platform moving in between: the second carries nobody. */
  lemma SecondUpdateAtRestMovesNobody(p: Platform, platformPos: Vec3, positions: map<ObjId, Vec3>)
    requires Distinct(p.standing)
    ensures var once := LateUpdate(p, platformPos, positions);
      LateUpdate(once.platform, platformPos, once.positions).positions == once.positions
  {
    var once := LateUpdate(p, platformPos, positions);
    StillPlatformMovesNobody(once.platform, once.positions);
  }
}

=== FILE: player.dfy ===
/**
 * Player: the main character. Locomotion and manipulation state, the horizontal room clamp, and
 * the per-frame Update pipeline of an active player. Engine results (ground contact, position
 * after CharacterController.Move, ray and overlap hits) are inputs.
 */
module Players {
  import opened Wrappers
  import opened Scene
  import opened UnityMath
  import Controllable
  import Locomotion
  import opened Manipulation

  /** The serialized tuning fields of Player, with their defaults below. */
  datatype Config = Config(
    walkSpeed: real, sprintSpeed: real, pullSpeed: real, jumpHeight: real, gravity: real,
    pushForce: real, pullMinDistance: real, pickupRange: real, throwForce: real, throwUpwardForce: real)

  const Defaults := Config(5.0, 8.0, 2.0, 2.0, -9.81, 5.0, 1.5, 2.0, 10.0, 2.0)

  datatype Player = Player(
    base: Controllable.Controllable,
    vertical: Locomotion.Vertical,
    isMoving: bool,
    isSprinting: bool,
    hands: Hands,
    x: real,
    minXBound: Option<real>,
    maxXBound: Option<real>,
    companion: Option<ObjId>)

  /** A freshly loaded player at x: unbounded horizontally, nothing held or pulled. */
  function Initial(x: real, companion: Option<ObjId>): Player
  {
    Player(Controllable.Initial, Locomotion.Rest, false, false, EmptyHands, x, None, None, companion)
  }

  function SetRoomBounds(p: Player, minX: real, maxX: real): (r: Player)
    ensures r.minXBound == Some(minX) && r.maxXBound == Some(maxX)
    ensures r == p.(minXBound := r.minXBound, maxXBound := r.maxXBound)
  {
    p.(minXBound := Some(minX), maxXBound := Some(maxX))
  }

  datatype MoveOutcome = MoveOutcome(player: Player, speed: real)

  /**
   * Move: pick the speed (pull speed while pulling a live body, else sprint or walk speed), run
   * the pull step, then clamp the x that CharacterController.Move produced (movedX) to the bounds.
   */
  function Move(p: Player, cfg: Config, input: Vec2, probe: CubeProbe, movedX: real): (r: MoveOutcome)
    ensures Ordered(p.minXBound, p.maxXBound) ==> Within(r.player.x, p.minXBound, p.maxXBound)
    ensures Within(movedX, p.minXBound, p.maxXBound) ==> r.player.x == movedX
    ensures r.player.isMoving <==> input.SqrMagnitude() > MoveThreshold
    ensures p.hands.isPulling && p.hands.pulledCube.Some? && probe.At? ==> r.speed == cfg.pullSpeed
    ensures !(p.hands.isPulling && p.hands.pulledCube.Some? && probe.At?) ==>
      r.speed == (if p.isSprinting then cfg.sprintSpeed else cfg.walkSpeed) && r.player.hands == p.hands
    ensures r.player.hands.isPulling ==> p.hands.isPulling
    ensures Consistent(p.hands) ==> Consistent(r.player.hands)
    ensures r.player == p.(isMoving := r.player.isMoving, hands := r.player.hands, x := r.player.x)
  {
    var pulling := p.hands.isPulling && p.hands.pulledCube.Some? && probe.At?;
    var speed := if pulling then cfg.pullSpeed else if p.isSprinting then cfg.sprintSpeed else cfg.walkSpeed;
    var hands := if pulling then HandlePulling(p.hands, probe, cfg.pullMinDistance) else p.hands;
    MoveOutcome(
      p.(isMoving := input.SqrMagnitude() > MoveThreshold, hands := hands,
         x := Clamp(movedX, p.minXBound, p.maxXBound)),
      speed)
  }

  /** Once SetRoomBounds has given an interval, every Move keeps x inside it. */
  lemma MoveStaysInRoom(p: Player, cfg: Config, minX: real, maxX: real, input: Vec2, probe: CubeProbe, movedX: real)
    requires minX <= maxX
    ensures minX <= Move(SetRoomBounds(p, minX, maxX), cfg, input, probe, movedX).player.x <= maxX
  {
  }

  /** root is the engine's Mathf.Sqrt(jumpHeight * -2 * gravity). */
  function Jump(p: Player, cfg: Config, root: real): (r: Player)
    requires root >= 0.0 && root * root == cfg.jumpHeight * -2.0 * cfg.gravity
    ensures !p.base.isActiveCharacter || !p.vertical.isGrounded ==> r == p
    ensures p.base.isActiveCharacter && p.vertical.isGrounded ==>
      && r.vertical.velocityY >= 0.0
      && r.vertical.velocityY * r.vertical.velocityY == -2.0 * cfg.jumpHeight * cfg.gravity
      && r == p.(vertical := r.vertical)
  {
    p.(vertical := Locomotion.Jump(p.vertical, p.base.isActiveCharacter, cfg.jumpHeight, cfg.gravity, root))
  }

  function PullStart(p: Player, forwardHit: Option<RayHit>): (r: Player)
    ensures CanPull(forwardHit) ==> r.hands.isPulling && r.hands.pulledCube == Some(forwardHit.value.body.value.id)
    ensures !CanPull(forwardHit) ==> r == p
    ensures r == p.(hands := r.hands)
  {
    p.(hands := Manipulation.PullStart(p.hands, forwardHit))
  }

  function PullStop(p: Player): (r: Player)
    ensures !r.hands.isPulling && r.hands.pulledCube.None?
    ensures r == p.(hands := r.hands)
  {
    p.(hands := Manipulation.PullStop(p.hands))
  }

  datatype PlayerHandover = PlayerHandover(player: Player, bodies: Bodies)

  function Interact(p: Player, hits: seq<Overlap>, bodies: Bodies): (r: PlayerHandover)
    ensures p.hands.isPulling || p.hands.isPushing ==> r == PlayerHandover(p, bodies)
    ensures r.player == p.(hands := r.player.hands)
    ensures Consistent(p.hands) ==> Consistent(r.player.hands)
    ensures r.bodies.Keys == bodies.Keys
    ensures !p.hands.isPulling && !p.hands.isPushing && p.hands.heldItem.None? ==>
      if Closest(hits).None? then r == PlayerHandover(p, bodies)
      else
        var item := hits[Closest(hits).value].obj;
        && r.player.hands == p.hands.(heldItem := Some(item), isHoldingObject := true)
        && (item in bodies ==> r.bodies[item])
        && (forall o :: o in bodies && o != item ==> r.bodies[o] == bodies[o])
    ensures !p.hands.isPulling && !p.hands.isPushing && p.hands.heldItem.Some? ==>
      var item := p.hands.heldItem.value;
      && r.player.hands == p.hands.(heldItem := None, isHoldingObject := false)
      && (item in bodies ==> !r.bodies[item])
      && (forall o :: o in bodies && o != item ==> r.bodies[o] == bodies[o])
  {
    var o := Manipulation.Interact(p.hands, hits, bodies);
    PlayerHandover(p.(hands := o.hands), o.bodies)
  }

  datatype PlayerThrow = PlayerThrow(player: Player, bodies: Bodies, impulse: Option<Impulse>)

  function Throw(p: Player, cfg: Config, bodies: Bodies, forward: Vec3): (r: PlayerThrow)
    ensures !p.hands.isHoldingObject || p.hands.heldItem.None? ==> r == PlayerThrow(p, bodies, None)
    ensures r.player == p.(hands := r.player.hands)
    ensures r.bodies.Keys == bodies.Keys
    ensures p.hands.isHoldingObject && p.hands.heldItem.Some? ==>
      var item := p.hands.heldItem.value;
      && r.player.hands == p.hands.(isHoldingObject := false, heldItem := None)
      && (item in bodies ==> !r.bodies[item])
      && (forall o :: o in bodies && o != item ==> r.bodies[o] == bodies[o])
      && (r.impulse.Some? <==> item in bodies)
      && (r.impulse.Some? ==> Launches(r.impulse.value, item, forward, cfg.throwForce, cfg.throwUpwardForce))
  {
    var o := Manipulation.Throw(p.hands, bodies, forward, cfg.throwForce, cfg.throwUpwardForce);
    PlayerThrow(p.(hands := o.hands), o.bodies, o.impulse)
  }

  /** The engine's answers for one Update frame. */
  datatype Frame = Frame(
    grounded: bool,            // CharacterController.isGrounded
    dt: real,                  // Time.deltaTime
    moveInput: Vec2,           // the Move action's value
    sprint: bool,              // the Sprint action is held
    pullProbeInMove: CubeProbe, // the pulled body after Move's pull step
    movedX: real,              // x after CharacterController.Move
    moveDirection: Vec3,       // the Move action's value on the ground plane, normalized
    pushHit: Option<RayHit>,   // the movement-direction ray
    pullProbeAfter: CubeProbe)  // the pulled body after Update's own pull step

  datatype Tick = Tick(player: Player, push: PushEffect)

  /**
   * Update: nothing happens for an inactive player. An active one integrates gravity, moves and
   * clamps, evaluates pushing, and runs one more pull step if still pulling.
   */
  function Update(p: Player, cfg: Config, f: Frame): (r: Tick)
    ensures !p.base.isActiveCharacter ==> r == Tick(p, NoPush)
    ensures p.base.isActiveCharacter ==>
      && r.player.isSprinting == f.sprint
      && r.player.vertical == Locomotion.HandleGravity(p.vertical, f.grounded, cfg.gravity, f.dt)
      && r.player.vertical.isGrounded == f.grounded
      && (r.player.isMoving <==> f.moveInput.SqrMagnitude() > MoveThreshold)
      && r.player.minXBound == p.minXBound && r.player.maxXBound == p.maxXBound
      && r.player.hands.isHoldingObject == p.hands.isHoldingObject
      && (r.player.hands.isPushing <==> f.moveInput.SqrMagnitude() >= MoveThreshold && CanPush(f.pushHit, true))
      && (r.push != NoPush <==> r.player.hands.isPushing)
      && (r.push != NoPush ==>
            && r.push.body == f.pushHit.value.body.value.id
            && (r.push.Translate? <==> f.pushHit.value.body.value.isKinematic)
            && (r.push.Translate? ==> r.push.offset == f.moveDirection.Scale(cfg.pullSpeed * f.dt))
            && (r.push.Force? ==> r.push.force == f.moveDirection.Scale(cfg.pushForce)))
      && (r.player.hands.isPulling ==>
            f.pullProbeAfter.At? && f.pullProbeAfter.distance <= cfg.pullMinDistance + PullSlack)
      && (Ordered(p.minXBound, p.maxXBound) ==> Within(r.player.x, p.minXBound, p.maxXBound))
    ensures r.player.base == p.base && r.player.hands.heldItem == p.hands.heldItem
    ensures Consistent(p.hands) ==> Consistent(r.player.hands)
  {
    if !p.base.isActiveCharacter then Tick(p, NoPush)
    else
      var p1 := p.(vertical := Locomotion.HandleGravity(p.vertical, f.grounded, cfg.gravity, f.dt),
                   isSprinting := f.sprint);
      var p2 := Move(p1, cfg, f.moveInput, f.pullProbeInMove, f.movedX).player;
      var pushed := HandlePushing(p2.hands, true, f.moveInput.SqrMagnitude(), f.moveDirection, f.pushHit, true,
                                  cfg.pushForce, cfg.pullSpeed * f.dt);
      var h := pushed.0;
      var h' := if h.isPulling then HandlePulling(h, f.pullProbeAfter, cfg.pullMinDistance) else h;
      Tick(p2.(hands := h'), pushed.1)
  }
}

=== FILE: room_trigger.dfy ===
/**
 * CameraRoomTrigger.OnTriggerEnter: a character entering a room volume records the room; if it
 * is the active character, the camera moves to the room and follows it.
 */
module RoomTriggers {
  import opened Wrappers
  import opened Scene
  import opened Characters
  import opened RoomCamera

  /** other is the entering collider's ControllableCharacter, when it has one in the cast. */
  function OnTriggerEnter(room: Room, other: Option<ObjId>, cast: Cast, cam: Camera): (r: (Cast, Camera))
    ensures other.None? || other.value !in cast ==> r == (cast, cam)
    ensures r.0.Keys == cast.Keys
    ensures other.Some? && other.value in cast ==>
      var c := other.value;
      && r.0[c].CurrentRoom() == Some(room)
      && r.0[c].IsActive() == cast[c].IsActive()
      && (forall id :: id in cast && id != c ==> r.0[id] == cast[id])
      && (!cast[c].IsActive() ==> r.1 == cam)
      && (cast[c].IsActive() ==> r.1.follow == Some(c))
      && (cast[c].IsActive() && room.HasFocus() ==> Shows(r.1, room))
      && (cast[c].IsActive() && !room.HasFocus() ==> r.1 == cam.(follow := Some(c)))
  {
    if other.None? || other.value !in cast then (cast, cam)
    else
      var c := other.value;
      var cast' := cast[c := SetCurrentRoom(cast[c], Some(room))];
      if cast[c].IsActive() then (cast', SetFollowTarget(MoveToRoom(cam, Some(room)), Some(c)))
      else (cast', cam)
  }

  /**
   * The active character walking from the camera's room into another room with a focus point:
   * the camera shows the new room and the history's top is the room just left.
   */
  lemma ActiveCharacterChangesRoom(room: Room, c: ObjId, cast: Cast, cam: Camera)
    requires c in cast && cast[c].IsActive() && room.HasFocus()
    requires cam.currentRoom.Some? && cam.currentRoom.value != room
    ensures var r := OnTriggerEnter(room, Some(c), cast, cam);
      && Shows(r.1, room)
      && r.1.history == cam.history + [cam.currentRoom.value]
      && r.0[c].CurrentRoom() == Some(room)
  {
  }
}

=== FILE: scene.dfy ===
/** Shared vocabulary of the scene: object identities, vectors, collider tags, rooms. */
module Scene {
  import opened Wrappers

  /** Identity of a game object or component. Unity compares references; the model compares ids. */
  type ObjId = nat

  datatype Vec2 = Vec2(x: real, y: real) {
    function SqrMagnitude(): real { x * x + y * y }
  }

  datatype Vec3 = Vec3(x: real, y: real, z: real) {
    function Plus(o: Vec3): Vec3 { Vec3(x + o.x, y + o.y, z + o.z) }
    function Minus(o: Vec3): Vec3 { Vec3(x - o.x, y - o.y, z - o.z) }
    function Scale(k: real): Vec3 { Vec3(k * x, k * y, k * z) }
  }

  const Zero := Vec3(0.0, 0.0, 0.0)
  const Up := Vec3(0.0, 1.0, 0.0)

  /** The collider tags the scripts compare against. */
  datatype Tag = Untagged | PlayerTag | CompanionTag | InteractableTag | PickupableTag

  /** A CameraRoomTrigger as authored: its identity, optional focus point and horizontal bounds. */
  datatype Room = Room(id: ObjId, focus: Option<Vec3>, minX: real, maxX: real) {
    predicate HasFocus() { focus.Some? }
  }

  /** Default bounds of a freshly added CameraRoomTrigger. */
  const DefaultRoomMinX: real := -5.0
  const DefaultRoomMaxX: real := 5.0

  /** Animator triggers are fire-and-forget signals identified by name. */
  type Cue = string
}

=== FILE: switch_manager.dfy ===
/**
 * CharacterSwitchManager: which of the two characters is active, the toggle rule, and the
 * camera hand-off to the newly active character.
 */
module SwitchManager {
  import opened Wrappers
  import opened Scene
  import opened Characters
  import opened RoomCamera

  datatype Manager = Manager(
    main: ObjId,             // mainCharacter; an id absent from the cast is an unassigned field
    companion: ObjId,        // companion; likewise
    active: Option<ObjId>,   // activeCharacter
    hasCamera: bool)         // a RoomCameraController was found at Start

  /** The mutable world the manager touches: the characters and the camera. */
  datatype Stage = Stage(cast: Cast, cam: Camera)

  datatype Switched = Switched(manager: Manager, stage: Stage)

  function GetActiveCharacter(m: Manager): Option<ObjId> { m.active }

  /** A character reference is Unity's null when it is unset or names no character of the cast. */
  predicate IsNull(s: Stage, ref: Option<ObjId>) { ref.None? || ref.value !in s.cast }

  /** Unity's == on two character references: two nulls are equal, otherwise the same character. */
  predicate SameCharacter(s: Stage, a: Option<ObjId>, b: Option<ObjId>) {
    if IsNull(s, a) then IsNull(s, b) else a == b
  }

  /**
   * SetActiveCharacter: deactivate the previous active character unless it is null, store c and
   * activate it, and with a camera present make c the follow target and hand the camera c's room,
   * instantly or through MoveToRoom. A null c is stored and then dereferenced: the exception ends
   * the call after the previous character was deactivated, so the camera is left alone.
   */
  function SetActiveCharacter(m: Manager, s: Stage, c: ObjId, instant: bool): (r: Switched)
    ensures GetActiveCharacter(r.manager) == Some(c)
    ensures r.manager == m.(active := Some(c))
    ensures r.stage.cast.Keys == s.cast.Keys
    ensures c in s.cast ==> r.stage.cast[c].IsActive()
    ensures !IsNull(s, m.active) && m.active.value != c ==> !r.stage.cast[m.active.value].IsActive()
    ensures forall id :: id in s.cast && id != c && Some(id) != m.active ==> r.stage.cast[id] == s.cast[id]
    ensures forall id :: id in s.cast ==> r.stage.cast[id].CurrentRoom() == s.cast[id].CurrentRoom()
    ensures c !in s.cast ==> r.stage.cam == s.cam && forall id :: id in s.cast && Some(id) != m.active ==>
      r.stage.cast[id] == s.cast[id]
    ensures !m.hasCamera ==> r.stage.cam == s.cam
    ensures m.hasCamera && c in s.cast ==> r.stage.cam.follow == Some(c)
    ensures m.hasCamera && c in s.cast ==>
      var room := s.cast[c].CurrentRoom();
      var followed := s.cam.(follow := Some(c));
      && (room.None? ==> r.stage.cam == followed)
      && (room.Some? && instant ==> r.stage.cam == SetInstant(followed, room))
      && (room.Some? && !instant ==> r.stage.cam == MoveToRoom(followed, room))
  {
    var cast1 := if !IsNull(s, m.active)
                 then s.cast[m.active.value := SetActive(s.cast[m.active.value], false)]
                 else s.cast;
    if c !in cast1 then Switched(m.(active := Some(c)), Stage(cast1, s.cam))
    else
      var cast2 := cast1[c := SetActive(cast1[c], true)];
      var cam :=
        if !m.hasCamera then s.cam
        else
          var followed := SetFollowTarget(s.cam, Some(c));
          var room := cast2[c].CurrentRoom();
          if room.None? then followed
          else if instant then SetInstant(followed, room)
          else MoveToRoom(followed, room);
      Switched(m.(active := Some(c)), Stage(cast2, cam))
  }

  /**
   * Start: the main character becomes active and the camera snaps to its room. An unassigned
   * main character is stored and nobody is activated.
   */
  function Start(m: Manager, s: Stage): (r: Switched)
    ensures r.stage.cast.Keys == s.cast.Keys
    ensures GetActiveCharacter(r.manager) == Some(m.main)
    ensures m.main in s.cast ==> r.stage.cast[m.main].IsActive()
    ensures m.main !in s.cast ==> r.stage.cam == s.cam && IsNull(r.stage, r.manager.active)
    ensures m.main in s.cast && m.hasCamera && Usable(s.cast[m.main].CurrentRoom()) ==>
      Shows(r.stage.cam, s.cast[m.main].CurrentRoom().value) && r.stage.cam.history == s.cam.history
  {
    SetActiveCharacter(m, s, m.main, true)
  }

  /**
   * The toggle key: the companion when the active character is the main one (in the sense of
   * Unity's ==, so two nulls match), the main character otherwise.
   */
  function Toggle(m: Manager, s: Stage): (r: Switched)
    ensures SameCharacter(s, m.active, Some(m.main)) ==> GetActiveCharacter(r.manager) == Some(m.companion)
    ensures !SameCharacter(s, m.active, Some(m.main)) ==> GetActiveCharacter(r.manager) == Some(m.main)
    ensures r.stage.cast.Keys == s.cast.Keys
    ensures r.manager.main == m.main && r.manager.companion == m.companion
  {
    SetActiveCharacter(m, s, if SameCharacter(s, m.active, Some(m.main)) then m.companion else m.main, false)
  }

  /**
   * With the companion unassigned, the toggle is no no-op: from the main character being active
   * one press leaves nobody active and the manager holding null, and the next press brings the
   * main character back.
   */
  lemma UnassignedCompanionAlternates(m: Manager, s: Stage)
    requires m.main in s.cast && m.companion !in s.cast
    requires m.active == Some(m.main) && s.cast[m.main].IsActive()
    ensures var r1 := Toggle(m, s);
      && IsNull(r1.stage, r1.manager.active)
      && (forall id :: id in r1.stage.cast ==> (r1.stage.cast[id].IsActive() <==> id != m.main && s.cast[id].IsActive()))
      && r1.stage.cam == s.cam
      && var r2 := Toggle(r1.manager, r1.stage);
        r2.manager.active == Some(m.main) && r2.stage.cast[m.main].IsActive()
  {
  }

  /** Exactly one of the two characters is flagged active, and it is the one the manager names. */
  predicate ExactlyOneActive(m: Manager, s: Stage) {
    && m.main != m.companion
    && m.main in s.cast && m.companion in s.cast
    && (m.active == Some(m.main) || m.active == Some(m.companion))
    && s.cast[m.main].IsActive() == (m.active == Some(m.main))
    && s.cast[m.companion].IsActive() == (m.active == Some(m.companion))
  }

  lemma StartEstablishesExactlyOne(m: Manager, s: Stage)
    requires m.main != m.companion && m.main in s.cast && m.companion in s.cast
    requires m.active.None? && !s.cast[m.companion].IsActive()
    ensures ExactlyOneActive(Start(m, s).manager, Start(m, s).stage)
  {
  }

  /** A toggle flips both flags together. */
  lemma ToggleKeepsExactlyOne(m: Manager, s: Stage)
    requires ExactlyOneActive(m, s)
    ensures var r := Toggle(m, s);
      && ExactlyOneActive(r.manager, r.stage)
      && r.stage.cast[m.main].IsActive() == !s.cast[m.main].IsActive()
      && r.stage.cast[m.companion].IsActive() == !s.cast[m.companion].IsActive()
  {
  }

  function Toggles(sw: Switched, n: nat): Switched
    decreases n
  {
    if n == 0 then sw
    else
      var next := Toggle(sw.manager, sw.stage);
      Toggles(next, n - 1)
  }

  /**
   * Counting only this manager's calls: after Start with two distinct characters, none of them
   * flagged active beforehand except possibly main, any number of toggles leaves exactly one active.
   */
  lemma {:induction false} ExactlyOneAfterToggles(m: Manager, s: Stage, n: nat)
    requires m.main != m.companion && m.main in s.cast && m.companion in s.cast
    requires m.active.None? && !s.cast[m.companion].IsActive()
    ensures var r := Toggles(Start(m, s), n); ExactlyOneActive(r.manager, r.stage)
  {
    StartEstablishesExactlyOne(m, s);
    TogglesKeepExactlyOne(Start(m, s), n);
  }

  lemma {:induction false} TogglesKeepExactlyOne(sw: Switched, n: nat)
    requires ExactlyOneActive(sw.manager, sw.stage)
    ensures var r := Toggles(sw, n); ExactlyOneActive(r.manager, r.stage)
    decreases n
  {
    if n > 0 {
      ToggleKeepsExactlyOne(sw.manager, sw.stage);
      TogglesKeepExactlyOne(Toggle(sw.manager, sw.stage), n - 1);
    }
  }
}

=== FILE: unity_math.dfy ===
/**
 * The Unity math helpers the scripts rely on, over reals.
 * Bounds that may be infinite are Option<real>: None below is -infinity, None above is +infinity.
 */
module UnityMath {
  import opened Wrappers

  /** x lies between the (possibly infinite) bounds lo and hi. */
  predicate Within(x: real, lo: Option<real>, hi: Option<real>) {
    (lo.None? || lo.value <= x) && (hi.None? || x <= hi.value)
  }

  /** The bounds describe a non-empty interval. */
  predicate Ordered(lo: Option<real>, hi: Option<real>) {
    lo.None? || hi.None? || lo.value <= hi.value
  }

  /** Mathf.Clamp: the lower bound is tested first, so reversed bounds are not an interval. */
  function Clamp(v: real, lo: Option<real>, hi: Option<real>): (r: real)
    ensures Ordered(lo, hi) ==> Within(r, lo, hi)
    ensures Within(v, lo, hi) ==> r == v
    ensures r == v || (lo.Some? && r == lo.value) || (hi.Some? && r == hi.value)
  {
    if lo.Some? && v < lo.value then lo.value
    else if hi.Some? && v > hi.value then hi.value
    else v
  }

  lemma ClampIdempotent(v: real, lo: Option<real>, hi: Option<real>)
    requires Ordered(lo, hi)
    ensures Clamp(Clamp(v, lo, hi), lo, hi) == Clamp(v, lo, hi)
  {
  }

  /** Mathf.Clamp01. */
  function Clamp01(t: real): (r: real)
    ensures 0.0 <= r <= 1.0
    ensures 0.0 <= t <= 1.0 ==> r == t
  {
    if t < 0.0 then 0.0 else if t > 1.0 then 1.0 else t
  }

  /** Mathf.Lerp: interpolation with the parameter clamped to [0, 1]. */
  function Lerp(a: real, b: real, t: real): (r: real)
    ensures a <= b ==> a <= r <= b
    ensures b <= a ==> b <= r <= a
    ensures t <= 0.0 ==> r == a
    ensures t >= 1.0 ==> r == b
  {
    var c := Clamp01(t);
    var d := b - a;
    MulBounds(d, c);
    a + d * c
  }

  /** A product with a factor in [0, 1] lies between 0 and the other factor. */
  lemma MulBounds(d: real, c: real)
    requires 0.0 <= c <= 1.0
    ensures 0.0 <= d ==> 0.0 <= d * c <= d
    ensures d <= 0.0 ==> d <= d * c <= 0.0
    ensures c == 0.0 ==> d * c == 0.0
    ensures c == 1.0 ==> d * c == d
  {
    if d < 0.0 {
      assert d * c == -((-d) * c);
    }
  }

  lemma MulMono(k: real, x: real, y: real)
    requires 0.0 <= k && x <= y
    ensures k * x <= k * y
  {
    assert k * y - k * x == k * (y - x);
  }

  lemma DivMono(n: real, m: real, d: real)
    requires 0.0 < d && n <= m
    ensures n / d <= m / d
  {
    assert n / d * d == n;
    assert m / d * d == m;
  }

  /** Mathf.InverseLerp: where v lies between a and b, as a fraction clamped to [0, 1]. */
  function InverseLerp(a: real, b: real, v: real): (r: real)
    ensures 0.0 <= r <= 1.0
    ensures a < b && v <= a ==> r == 0.0
    ensures a < b && v >= b ==> r == 1.0
  {
    if a != b then
      InverseLerpEnds(a, b, v);
      Clamp01((v - a) / (b - a))
    else 0.0
  }

  lemma InverseLerpEnds(a: real, b: real, v: real)
    requires a != b
    ensures a < b && v <= a ==> (v - a) / (b - a) <= 0.0
    ensures a < b && v >= b ==> (v - a) / (b - a) >= 1.0
  {
    if a < b && v <= a {
      DivMono(v - a, 0.0, b - a);
    }
    if a < b && v >= b {
      DivMono(b - a, v - a, b - a);
    }
  }

  /** Growing the value never decreases InverseLerp over an increasing range. */
  lemma InverseLerpMonotone(a: real, b: real, v: real, w: real)
    requires a < b && v <= w
    ensures InverseLerp(a, b, v) <= InverseLerp(a, b, w)
  {
    DivMono(v - a, w - a, b - a);
  }

  /** Lerp moves towards b as its parameter grows, when a <= b. */
  lemma LerpMonotone(a: real, b: real, s: real, t: real)
    requires a <= b && s <= t
    ensures Lerp(a, b, s) <= Lerp(a, b, t)
  {
    var d, cs, ct := b - a, Clamp01(s), Clamp01(t);
    MulMono(d, cs, ct);
    var ps, pt := d * cs, d * ct;
    assert ps <= pt;
    assert Lerp(a, b, s) == a + ps;
    assert Lerp(a, b, t) == a + pt;
  }

  function Abs(x: real): real { if x < 0.0 then -x else x }

  /**
   * Vector3.MoveTowards restricted to the line through current and target:
   * step at most maxDelta towards target, landing on it when it is that close.
   */
  function MoveTowards(current: real, target: real, maxDelta: real): (r: real)
    ensures maxDelta >= 0.0 ==> Abs(target - r) <= Abs(target - current)
    ensures maxDelta >= 0.0 ==> r == target || Abs(target - r) == Abs(target - current) - maxDelta
  {
    if current == target || (maxDelta >= 0.0 && Abs(target - current) <= maxDelta) then target
    else if target > current then current + maxDelta
    else current - maxDelta
  }
}

=== FILE: win_box.dfy ===
/**
 * WinBox: the exit zone. The level is won when the player and the companion are both inside;
 * each entry that finds both inside starts the fade-out-and-quit sequence.
 */
module WinBoxes {
  import opened Scene

  datatype WinBox = WinBox(playerInside: bool, companionInside: bool)

  const Initial := WinBox(false, false)

  datatype Entered = Entered(box: WinBox, startsFade: bool)

  /** OnTriggerEnter: a "Player" or "Companion" collider marks its side inside; the fade starts when both are. */
  function OnTriggerEnter(w: WinBox, tag: Tag): (r: Entered)
    ensures r.startsFade <==> r.box.playerInside && r.box.companionInside
    ensures tag == PlayerTag ==> r.box == w.(playerInside := true)
    ensures tag == CompanionTag ==> r.box == w.(companionInside := true)
    ensures tag != PlayerTag && tag != CompanionTag ==> r.box == w
  {
    var b := if tag == PlayerTag then w.(playerInside := true)
             else if tag == CompanionTag then w.(companionInside := true)
             else w;
    Entered(b, b.playerInside && b.companionInside)
  }

  /** OnTriggerExit: the leaving side is no longer inside; leaving never starts the fade. */
  function OnTriggerExit(w: WinBox, tag: Tag): (r: WinBox)
    ensures tag == PlayerTag ==> !r.playerInside && r.companionInside == w.companionInside
    ensures tag == CompanionTag ==> !r.companionInside && r.playerInside == w.playerInside
    ensures tag != PlayerTag && tag != CompanionTag ==> r == w
  {
    if tag == PlayerTag then w.(playerInside := false)
    else if tag == CompanionTag then w.(companionInside := false)
    else w
  }

  datatype Event = Enter(tag: Tag) | Exit(tag: Tag)

  /** How many times a run of trigger events starts the fade. */
  function Fades(w: WinBox, events: seq<Event>): (r: nat)
    decreases |events|
  {
    if |events| == 0 then 0
    else match events[0]
      case Enter(t) =>
        var e := OnTriggerEnter(w, t);
        (if e.startsFade then 1 else 0) + Fades(e.box, events[1..])
      case Exit(t) => Fades(OnTriggerExit(w, t), events[1..])
  }

  function Final(w: WinBox, events: seq<Event>): WinBox
    decreases |events|
  {
    if |events| == 0 then w
    else match events[0]
      case Enter(t) => Final(OnTriggerEnter(w, t).box, events[1..])
      case Exit(t) => Final(OnTriggerExit(w, t), events[1..])
  }

  /** Both must come in: if the companion never enters after starting outside, the fade never starts. */
  lemma {:induction false} NoWinWithoutCompanion(w: WinBox, events: seq<Event>)
    requires !w.companionInside
    requires forall i :: 0 <= i < |events| ==> events[i] != Enter(CompanionTag)
    ensures Fades(w, events) == 0
    ensures !Final(w, events).companionInside
    decreases |events|
  {
    if |events| > 0 {
      var next := match events[0] case Enter(t) => OnTriggerEnter(w, t).box case Exit(t) => OnTriggerExit(w, t);
      NoWinWithoutCompanion(next, events[1..]);
    }
  }

  /** Symmetrically for the player. */
  lemma {:induction false} NoWinWithoutPlayer(w: WinBox, events: seq<Event>)
    requires !w.playerInside
    requires forall i :: 0 <= i < |events| ==> events[i] != Enter(PlayerTag)
    ensures Fades(w, events) == 0
    ensures !Final(w, events).playerInside
    decreases |events|
  {
    if |events| > 0 {
      var next := match events[0] case Enter(t) => OnTriggerEnter(w, t).box case Exit(t) => OnTriggerExit(w, t);
      NoWinWithoutPlayer(next, events[1..]);
    }
  }

  /** The fade is not a one-shot: every further entry while both are inside starts it again. */
  lemma FadeCanStartTwice()
    ensures Fades(Initial, [Enter(PlayerTag), Enter(CompanionTag), Enter(CompanionTag)]) == 2
  {
    var evs := [Enter(PlayerTag), Enter(CompanionTag), Enter(CompanionTag)];
    assert evs[1..] == [Enter(CompanionTag), Enter(CompanionTag)];
    assert evs[1..][1..] == [Enter(CompanionTag)];
  }
}

=== FILE: wrappers.dfy ===
/** Optional values, standing in for the source's nullable references. */
module Wrappers {

  datatype Option<+T> = None | Some(value: T)
}
